=== FILE: README.md ===
# Sea-Bird CNV header reader

This project models the core of `cnv.py`. That module reads Sea-Bird `.cnv` files, the text files written by Sea-Bird CTD software. A file has a header of marked lines, then an `*END*` line, then rows of numbers. The model covers three parts of it:

- **`rename_sbs_variable`**: a first-match search that maps a raw Sea-Bird variable token to a canonical `(name, format, units)` triple.
- **`is_xml_line`**: the test that marks a line as XML noise.
- **The line loop of `read`**: a two-phase fold over the file's lines.
  - In the header phase, each stripped line goes to at most one place according to its prefix:
    - the instrument headers;
    - the data file type or Seasave version;
    - the user headers;
    - the variable declarations (`# name`);
    - the spans (`# span`);
    - the software headers.
  - The first non-noise line starting with `*END*` switches to the data phase. Below, an "`*END*` line" always means such a non-noise line: a line like `*END* <x>` is XML noise and is skipped before the `*END*` test. From then on, every line that is neither noise nor another `*END*` line is buffered.
  - At the end, every declared variable is resolved through the table.

The module layout follows the program's structure:

| file | module | contents |
|---|---|---|
| `wrappers.dfy` | `Wrappers` | `Option` and `Result`, with the `:-` failure propagation. |
| `text.dfy` | `Text` | The Python string operations the reader uses: `strip`, `split(c, 1)`, `split(c)`, `':'.join`, `split()`, `s[n:]`, `xs[-2:]`, and `re.sub(r'\W', '_', ...)`. |
| `assoc.dfy` | `Assoc` | A Python `dict` modelled as an insertion-ordered association list. Assigning an existing key replaces its value in place; a new key is appended. |
| `resolver.dfy` | `Resolver` | The variable table, passed in as an immutable parameter, and `rename_sbs_variable`. |
| `patterns.dfy` | `Patterns` | The regular expressions of `is_xml_line` and of the `# name` line. Each one is stated against a direct description of what the pattern matches, with Python's leftmost, greedy and lazy semantics. |
| `cnv.dfy` | `Cnv` | The record, the reader state, one loop iteration (`Step`), the fold (`Run`), the normalisation loop and `Read`. |
| `properties.dfy` | `CnvProperties` | What the reader promises. This includes the effect of each kind of line, the invariants every step keeps, and the split of the whole pass at the first `*END*` line. |

The model follows the code as written, including these behaviours:

- `*END*` is a prefix test.
- Noise lines are dropped in both phases.
- Instrument-header keys keep their `* ` marker, sanitised to `__`, whenever a non-space character follows the marker before `=`. The line `* = v` gives the key `_`, because `key.strip()` is then `*`.
- The data file type and Seasave version are `line[3:]` stripped, and a later line overwrites them.
- A `# name` line whose index, `= name` or `: long name` pattern does not match aborts the read with `MalformedName`.
- A variable the table lacks aborts the read with `UnresolvedVariable`: `rename_sbs_variable` returns `None` for it, and unpacking `None` into three names at cnv.py:146 raises `TypeError`.
- `line[3:]` drops the two-character `* ` marker and one more character. On an example data-file line `* Data File: test` it gives `ata File: test`, which `CnvProperties.DataFileExample` states.
- `# span` lines are appended whenever they occur. The code does not tie them to a declaration, so `spans` may be longer than `vars`. `CnvProperties.SpanBeforeDeclaration` shows a file whose only line is a span.

The file contents are an input. Once they are read, `read` is `Cnv.Read(table, source, lines)`, where:

- `lines` is the sequence of lines, with or without their line terminators;
- `table` is the variable table;
- `source` is the path or URL, which is stored verbatim.

Characters are treated as follows:

- Whitespace is space, tab, CR and LF.
- Word characters are the ASCII letters, digits and `_`.
- The `.` of `<.*?>` and `\[(.+?)\]` does not match a line feed.
- The classes `[^:]` and `[^[]` do match a line feed.

## Model

| member | source | states |
|---|---|---|
| Resolver.Lookup | cnv.py:38-41 | The result is the canonical triple of the first entry whose aliases contain the token; it is `None` exactly when no entry contains it |
| Resolver.LookupFirstWins | cnv.py:38-40 | When entry `i` is the first listing the token, its triple is returned, whatever later entries hold |
| Patterns.HasTag | cnv.py:52 | `<.*?>` is found exactly when some `<` is followed, on the same line, by a `>` |
| Patterns.EndsSelfClosing | cnv.py:52 | `/>\s*$` is found exactly when the string is `/>` followed only by whitespace at its end |
| Patterns.IsXmlLine | cnv.py:44-52 | A line is noise exactly when it holds a one-line `<...>` tag or ends in `/>` before trailing whitespace |
| Patterns.XmlLineWithoutNewlines | cnv.py:52 | On a line without line feeds, noise means a `<` at some index with a `>` at a later one, or ending in `/>` once trailing whitespace is removed |
| Patterns.HasIndex | cnv.py:124 | `# name (\d+)` is found exactly when `# name ` followed by a digit occurs |
| Patterns.LeadGroup | cnv.py:125-126 | Group 1 of `= ([^:]+)` or `: ([^[]+)`. It is absent exactly when no lead is followed by an allowed character; otherwise it is the maximal run after the leftmost such lead |
| Patterns.CloseOf | cnv.py:127 | For a `[` at `p`, the lazily matched `]` is the first one at least two places on, on the same line; it is absent when there is none |
| Patterns.UnitOf | cnv.py:127-128 | The unit is "" exactly when no `[x...]` span exists; otherwise it is the text inside the leftmost, shortest such span |
| Patterns.ParseName | cnv.py:123-128 | Parsing fails exactly when one of the three patterns is missing. Otherwise the name and long name are the stripped groups and the unit is `UnitOf` |
| Text.Strip | cnv.py:87 | The result has no whitespace at either end and is the input with only whitespace removed around it |
| Text.Indent | cnv.py:87 | Where `lstrip` starts: every character before it is whitespace, and the one at it is not |
| Text.RStrip | cnv.py:52 | Only trailing whitespace is removed, and the result ends with a non-space |
| Text.StripStripped | cnv.py:87 | A string with no whitespace at either end is returned unchanged |
| Text.StripIdempotent | cnv.py:87 | Stripping twice is stripping once |
| Text.StartsWith | cnv.py:95-122 | `str.startswith`, as at lines 95, 107, 117 and 122: the string begins with the prefix |
| Text.Contains | cnv.py:112-132 | The substring test `p in s`, as at lines 112, 114, 123 and 132: `p` occurs at some position of `s` |
| Text.Drop | cnv.py:113 | `s[n:]` keeps the characters from `n` on, and is empty when `n` is past the end |
| Text.Sanitize | cnv.py:110 | Every non-word character becomes `_`, word characters are kept, and the length is unchanged |
| Text.SanitizeIdempotent | cnv.py:118 | A sanitised key is unchanged by sanitising again |
| Text.SplitOnce | cnv.py:109 | `split(c, 1)`: when `c` occurs, the input is the part before, `c`, and the part after, with no `c` before. Otherwise the first part is the whole input, as in Python's one-element `[s]`; the "" second part is a convention of the model that cnv.py never reads, because lines 109 and 137 split only when `=` occurs and line 118 reads only the first part |
| Text.SplitOnceAt | cnv.py:109 | The split is fixed by the first separator: `a + c + b` with no `c` in `a` splits into `(a, b)` |
| Text.Join | cnv.py:119 | `sep.join(parts)`: the parts with `sep` between consecutive ones. `Text.JoinSplitAll` and `Text.AfterFirstSeparator` state what it gives on the pieces of `split(c)` |
| Text.SplitAll | cnv.py:119 | `split(c)` yields at least one piece, and no piece holds the separator |
| Text.JoinSplitAll | cnv.py:119 | Joining the pieces of `split(c)` with `c` gives the input back |
| Text.AfterFirstSeparator | cnv.py:119 | `':'.join(line.split(':')[1:])` is the text after the first colon, later colons kept |
| Text.Words | cnv.py:134 | `split()` yields only non-empty pieces without whitespace. `Text.Gaps` and `Text.WordsSplitsAs` pin down which pieces |
| Text.Gaps | cnv.py:134 | Every string is its `split()` words in order, with whitespace gaps around them and a non-empty gap between two words, so no character is lost |
| Text.WordsOfSplit | cnv.py:134 | Any string written as words with whitespace gaps (leading, trailing, repeated, tabs included) splits into exactly those words |
| Text.WordsSplitsAs | cnv.py:134 | `split()` returns `ws` exactly when the string is `ws` separated and surrounded by whitespace as above, so the result is the maximal non-whitespace runs in order |
| Text.WordsUnwords | cnv.py:134 | `split()` recovers the words of a single-space-joined line |
| Text.LastTwo | cnv.py:135 | `xs[-2:]` is the last two elements, or all of them when there are fewer |
| Assoc.Put | cnv.py:111 | `d[k] = v`: the key then maps to `v` and every other key is unchanged. An existing key keeps its position; a new key is appended |
| Assoc.PutUniqueKeys | cnv.py:120 | Assignment keeps the keys distinct |
| Assoc.PutInPlace | cnv.py:138 | Re-assigning a present key replaces its pair where it stands and leaves the pairs around it untouched |
| Cnv.EmptyRecord | cnv.py:56-70 | The initial dict `s`: the source stored verbatim, no data file type or Seasave version, and every dict and list empty |
| Cnv.Initial | cnv.py:82-83 | The loop starts in the header phase with an empty record and no data lines |
| Cnv.InstrumentKey | cnv.py:110 | The instrument key `re.sub(r'\W', '_', key.strip())`, marker included. `CnvProperties.InstrumentKeyMarker` states that the `* ` marker becomes `__` |
| Cnv.UserKey | cnv.py:118 | The user key: the text before the first `:`, past three characters, stripped and sanitised. `CnvProperties.UserAssignment` and `UserLineNoColon` state it |
| Cnv.IsNoise | cnv.py:87-92 | A raw line is noise when, stripped, it is an XML line. `CnvProperties.NoiseIgnored` states that such a line changes nothing in either phase |
| Cnv.IsEnd | cnv.py:95-97 | A raw line ends the header when it is not noise and, stripped, starts with `*END*`. `CnvProperties.EndSwitchesPhase`, `CnvProperties.FirstEnd` and `CnvProperties.SplitAtEnd` state its effect |
| Cnv.InstrumentLine | cnv.py:107-115 | The `* ` branch. `CnvProperties.InstrumentAssignment`, `DataFileLine`, `SeasaveLine` and `OtherInstrumentLine` state each case; `InstrumentLineOnly` and `InstrumentLineWellformed` state what it keeps |
| Cnv.UserLine | cnv.py:117-120 | The `**` branch. `CnvProperties.UserAssignment` and `UserLineNoColon` state its key and value; `UserLineOnly` and `UserLineWellformed` state what it keeps |
| Cnv.HashLine | cnv.py:122-138 | The `# ` branch. `CnvProperties.DeclarationLine`, `SpanLine` and `SoftwareAssignment` state each case; `HashLineOnly` and `HashLineWellformed` state what it keeps |
| Cnv.HeaderLine | cnv.py:106-138 | The prefix dispatch of a header-phase line. `CnvProperties.MarkersExclusive` states that the prefixes are disjoint; `HeaderLineOnly` and `HeaderLineWellformed` state what every branch keeps |
| Cnv.Step | cnv.py:86-142 | One loop iteration. `CnvProperties.NoiseIgnored`, `EndSwitchesPhase`, `StepHeader`, `HeaderStep` and `DataStepAppends` state each case; `StepPreservesWellformed` states the invariants it keeps |
| Cnv.Run | cnv.py:86 | The loop over every line, stopping at the first failure. `CnvProperties.RunAppend`, `RunDataPhase`, `RunHeaderPhase`, `SplitAtEnd` and `RunSections` state its behaviour; `RunPreservesWellformed` states its invariants |
| Cnv.Normalise | cnv.py:145-148 | Succeeds exactly when every variable resolves. Then both lists have the length of `vars`, and position `i` holds the name and format resolved from `vars[i]`. Otherwise the error names the first unresolved variable |
| Cnv.NormaliseTailFails | cnv.py:145-146 | When the first variable resolves, the first unresolved variable of the rest is the first unresolved variable of the whole list, and the list does not fully resolve |
| Cnv.Read | cnv.py:81-148 | The pass and the normalisation succeed exactly when the pass succeeds and every declared variable resolves. The record is the pass's record plus the resolved lists, and the data lines are the pass's buffer |
| CnvProperties.NoiseIgnored | cnv.py:87-92 | A noise line changes nothing, in either phase |
| CnvProperties.EndSwitchesPhase | cnv.py:95-97 | A line starting with `*END*` sets the data phase and is stored nowhere |
| CnvProperties.StepHeader | cnv.py:99-122 | Any other header-phase line goes to the prefix dispatch, and its failure is the step's failure |
| CnvProperties.HeaderStep | cnv.py:99-122 | A header-phase line that is neither noise nor `*END*` stores exactly the record the dispatch returns |
| CnvProperties.InstrumentLineOnly | cnv.py:107-115 | A `* ` line changes at most one field of the record |
| CnvProperties.UserLineOnly | cnv.py:117-120 | A `**` line changes only the user headers |
| CnvProperties.HashLineOnly | cnv.py:122-138 | A `# ` line that parses changes at most one field |
| CnvProperties.HeaderLineOnly | cnv.py:106-138 | Each dispatched header line changes at most one field |
| CnvProperties.HeaderStepTouchesOneField | cnv.py:86-138 | In the header phase, a step never buffers data, leaves the phase exactly on an `*END*` line, and changes at most one field |
| CnvProperties.DataStepAppends | cnv.py:140-142 | In the data phase, only the buffer grows, by the stripped line; noise and `*END*` lines add nothing, and the phase stays data |
| CnvProperties.MarkersExclusive | cnv.py:95-122 | The `*END*`, `* `, `**` and `# ` prefixes select disjoint branches |
| CnvProperties.InstrumentAssignment | cnv.py:108-111 | `* a = b` sets exactly the instrument header `sanitise(strip(a))` to `strip(b)` |
| CnvProperties.InstrumentKeyMarker | cnv.py:109-110 | An instrument key keeps the `* ` marker as `__` whenever a non-space follows it |
| CnvProperties.DataFileLine | cnv.py:112-113 | A `* ` line with `Data File` and no `=` sets the data file type to `line[3:]` stripped, overwriting any earlier value |
| CnvProperties.SeasaveLine | cnv.py:114-115 | A `* ` line with `Seasave`, and without `=` or `Data File`, sets the Seasave version the same way |
| CnvProperties.OtherInstrumentLine | cnv.py:107-115 | Any other `* ` line changes nothing |
| CnvProperties.OtherHeaderLine | cnv.py:106-138 | A header-phase line with none of the `* `, `**` and `# ` prefixes falls through the dispatch: it is skipped without error and changes nothing |
| CnvProperties.OtherHashLine | cnv.py:122-138 | A `# ` line with neither `# name`, `# span` nor `=` is skipped without error and changes nothing |
| CnvProperties.HeaderLineFailure | cnv.py:106-138 | The dispatch fails exactly on a `# ` line containing `# name` whose patterns do not all match; every other header line is silent |
| CnvProperties.UserAssignment | cnv.py:117-120 | `** a: b` sets exactly the user header `sanitise(strip(a[3:]))` to `b` stripped, later colons kept |
| CnvProperties.UserLineNoColon | cnv.py:118-120 | A `**` line without a colon has an empty value, and its key is the whole line past its first three characters, stripped and sanitised |
| CnvProperties.UserLineWithoutColon | cnv.py:117-120 | In the header phase, a `**` line without a colon stores an empty user-header value |
| CnvProperties.DeclarationLine | cnv.py:123-131 | A `# name` line fails exactly when its parse fails, with that line as the error. Otherwise it appends one element to each of `vars`, long names and units, in encounter order |
| CnvProperties.SpanLine | cnv.py:132-135 | A `# span` line that is not a `# name` line appends its last two whitespace-separated tokens, which are always two |
| CnvProperties.SpanLineHasTwoWords | cnv.py:134-135 | A `# ` line holding `# span` has at least two tokens |
| CnvProperties.WordsNonEmpty | cnv.py:134 | A string with a non-space character has at least one token |
| CnvProperties.SoftwareAssignment | cnv.py:136-138 | Any other `# a = b` line sets the software header `strip(a)`, unsanitised and marker included, to `strip(b)` |
| CnvProperties.SpanExample | cnv.py:134-135 | The tokens taken from `# span 0 = 1 23.4 56.7` are `["23.4", "56.7"]` |
| CnvProperties.PutSanitizedKeys | cnv.py:110-111 | Assigning a sanitised key keeps every key sanitised |
| CnvProperties.InstrumentLineWellformed | cnv.py:107-115 | A `* ` line keeps the record invariants |
| CnvProperties.UserLineWellformed | cnv.py:117-120 | A `**` line keeps the record invariants |
| CnvProperties.HashLineWellformed | cnv.py:122-138 | A `# ` line keeps the record invariants |
| CnvProperties.HeaderLineWellformed | cnv.py:106-138 | Every dispatched header line keeps the record invariants |
| CnvProperties.StepPreservesWellformed | cnv.py:86-142 | Every loop iteration keeps the record invariants |
| CnvProperties.RunPreservesWellformed | cnv.py:86-142 | The loop keeps the record invariants: parallel declaration lists, sanitised instrument and user keys, and no header key stored twice |
| CnvProperties.ReadWellformed | cnv.py:81-148 | A successful read has those invariants, and as many resolved names as units |
| CnvProperties.RunAppend | cnv.py:86 | The loop over `a + b` is the loop over `a`, continued over `b` unless it failed |
| CnvProperties.KeptLines | cnv.py:140-142 | The lines the data phase buffers: each line that is neither noise nor `*END*`, stripped, in order, so never more lines than it is given |
| CnvProperties.RunDataPhase | cnv.py:90-142 | Once in the data phase, the loop never fails and appends exactly the stripped non-noise, non-`*END*` lines, in order |
| CnvProperties.RunHeaderPhase | cnv.py:94-138 | Before any `*END*` line, the loop stays in the header phase and buffers nothing |
| CnvProperties.SplitAtEnd | cnv.py:86-142 | The loop splits at the first `*END*` line. The record is the one built from the lines before it, and the buffer holds the kept lines after it |
| CnvProperties.FirstEnd | cnv.py:95 | The index found is the first non-noise line whose stripped form starts with `*END*`, or absent when there is none |
| CnvProperties.RunSections | cnv.py:86-142 | The loop succeeds exactly when it succeeds on the header section. Its record is that section's record, and its buffer is the data section |
| CnvProperties.NoEndSections | cnv.py:86-138 | A file without an `*END*` line buffers no data lines |
| CnvProperties.EndSections | cnv.py:86-142 | With the first `*END*` line at `k`, the loop succeeds exactly when it does on the lines before `k`. It keeps their record and buffers the kept lines after `k` |
| CnvProperties.ReadSucceeds | cnv.py:86-148 | The pass and the normalisation succeed exactly when the header section parses and every variable it declares resolves |
| CnvProperties.ReadSections | cnv.py:86-148 | A successful read returns exactly the data section as its data lines, and the variables and instrument headers of the header section |
| CnvProperties.PlainLineNotXml | cnv.py:52 | A line with neither `<` nor `/` is never noise |
| CnvProperties.ExampleSpanStep | cnv.py:132-135 | Read first, an example span line records one span and nothing else |
| CnvProperties.SpanBeforeDeclaration | cnv.py:132-135 | A file whose only line is a span reads to one span and no variables, so spans are not bounded by declarations |
| CnvProperties.DataFileExample | cnv.py:112-113 | `* Data File: test` sets the data file type to `ata File: test` |

## Left out

- File and HTTP input (cnv.py:72-79): the lines are a parameter. `readlines` keeps line terminators and `splitlines` does not; the model accepts either, because every line is stripped first.
- Loading the JSON variable table at import time (cnv.py:15-27): the table is a parameter. `load_variable_dictionary` ignores its argument, which does not matter once the table is passed in.
- The numeric conversion with `np.loadtxt` and the column assignment (cnv.py:150-154), and with them the record's `data` field. This is floating-point work in a foreign library. The data lines are returned as stripped strings instead.
- The `nheader` counter (cnv.py:81, 101): it is never returned.
- The branch at cnv.py:104-105: it cannot be reached, because line 95 already handles every `*END*` line.
- The integer conversion of the index group (cnv.py:124): its value is never used, and `\d+` needs at least one digit. It can still raise: Python's `int()` rejects a digit string longer than the interpreter's integer-string limit (4300 digits by default since Python 3.11). On such a `# name` line `read` raises `ValueError` while `Patterns.ParseName` succeeds.
- Cnv.Read: it models `read` up to cnv.py:148 and returns `Success` in these cases, where the numeric stage at cnv.py:150-154 raises after the pass and the normalisation have succeeded:
  - `np.loadtxt` raises `ValueError` on a data line that is not numeric or whose column count differs from the others;
  - a single data line or a single column gives a 1-D array, so `data_array[:, i]` raises `IndexError` as soon as one variable is declared;
  - more declared variables than columns also raises `IndexError`.
- Unicode behaviour of `strip`, `split`, `\s`, `\w` and `\d`. Whitespace is space, tab, CR and LF; `\w` and `\d` are read over ASCII. Python also treats form feed, vertical tab, the ASCII separator controls `\x1c` to `\x1f` and Unicode spaces as whitespace, and non-ASCII letters and digits as word characters and digits; the model does not.

=== FILE: assoc.dfy ===
/**
 * A Python `dict` as an insertion-ordered association list: assigning an
 * existing key replaces its value where it stands, a new key is appended.
 */
module Assoc {
  import opened Wrappers

  /** Keys and values are strings throughout the CNV record. */
  type Dict = seq<(string, string)>

  function Keys(d: Dict): (ks: seq<string>)
    ensures |ks| == |d|
    ensures forall i :: 0 <= i < |d| ==> ks[i] == d[i].0
  {
    seq(|d|, i requires 0 <= i < |d| => d[i].0)
  }

  /** Python's dict invariant: no key occurs twice. */
  ghost predicate UniqueKeys(d: Dict) {
    forall i, j :: 0 <= i < j < |d| ==> d[i].0 != d[j].0
  }

  /** Python's `d.get(k)`: the value of the first pair with key `k`. */
  function Get(d: Dict, k: string): (r: Option<string>)
    ensures r.None? <==> k !in Keys(d)
    ensures r.Some? ==> (k, r.value) in d
  {
    if |d| == 0 then None
    else if d[0].0 == k then Some(d[0].1)
    else
      assert Keys(d) == [d[0].0] + Keys(d[1..]);
      Get(d[1..], k)
  }

  /**
   * `r` is `d` after `d[k] = v`: the key maps to `v`, every other key keeps
   * its value, an existing key keeps its place and a new key is appended.
   */
  ghost predicate PutSpec(d: Dict, k: string, v: string, r: Dict) {
    && Get(r, k) == Some(v)
    && (forall k' :: k' != k ==> Get(r, k') == Get(d, k'))
    && (k in Keys(d) ==> Keys(r) == Keys(d))
    && (k !in Keys(d) ==> r == d + [(k, v)])
  }

  /** Python's `d[k] = v`. */
  function Put(d: Dict, k: string, v: string): (r: Dict)
    ensures Get(r, k) == Some(v)
    ensures forall k' :: k' != k ==> Get(r, k') == Get(d, k')
    ensures k in Keys(d) ==> Keys(r) == Keys(d)
    ensures k !in Keys(d) ==> r == d + [(k, v)]
  {
    if |d| == 0 then
      GetCons((k, v), [], k);
      [(k, v)]
    else if d[0].0 == k then
      PutHead(d, k, v);
      [(k, v)] + d[1..]
    else
      var t := Put(d[1..], k, v);
      PutTail(d, k, v, t);
      [d[0]] + t
  }

  /** `Get` on a pair followed by a dict. */
  lemma GetCons(p: (string, string), d: Dict, k: string)
    ensures Get([p] + d, k) == if p.0 == k then Some(p.1) else Get(d, k)
  {
    assert ([p] + d)[1..] == d;
  }

  /** `Keys` of a pair followed by a dict. */
  lemma KeysCons(p: (string, string), d: Dict)
    ensures Keys([p] + d) == [p.0] + Keys(d)
  {
  }

  /** `Get` on a non-empty dict, through its first pair. */
  lemma GetFirst(d: Dict, k: string)
    requires |d| > 0
    ensures Get(d, k) == if d[0].0 == k then Some(d[0].1) else Get(d[1..], k)
  {
  }

  /** Assigning the key of the first pair replaces that pair. */
  lemma PutHead(d: Dict, k: string, v: string)
    requires |d| > 0 && d[0].0 == k
    ensures PutSpec(d, k, v, [(k, v)] + d[1..])
  {
    var r := [(k, v)] + d[1..];
    assert d == [d[0]] + d[1..];
    KeysCons(d[0], d[1..]);
    KeysCons((k, v), d[1..]);
    forall k' | k' != k
      ensures Get(r, k') == Get(d, k')
    {
      GetCons((k, v), d[1..], k');
      GetFirst(d, k');
    }
    GetCons((k, v), d[1..], k);
  }

  /** Assigning any other key keeps the first pair and assigns in the rest. */
  lemma PutTail(d: Dict, k: string, v: string, t: Dict)
    requires |d| > 0 && d[0].0 != k
    requires PutSpec(d[1..], k, v, t)
    ensures PutSpec(d, k, v, [d[0]] + t)
  {
    var r := [d[0]] + t;
    KeysCons(d[0], t);
    assert d == [d[0]] + d[1..];
    KeysCons(d[0], d[1..]);
    forall k' | k' != k
      ensures Get(r, k') == Get(d, k')
    {
      GetCons(d[0], t, k');
      GetFirst(d, k');
    }
    GetCons(d[0], t, k);
    if k !in Keys(d) {
      assert r == d + [(k, v)];
    }
  }

  /** Assigning a key keeps the dict's keys unique. */
  lemma PutUniqueKeys(d: Dict, k: string, v: string)
    requires UniqueKeys(d)
    ensures UniqueKeys(Put(d, k, v))
  {
    var r := Put(d, k, v);
    if k in Keys(d) {
      assert forall i :: 0 <= i < |r| ==> r[i].0 == Keys(r)[i];
    } else {
      forall i, j | 0 <= i < j < |r|
        ensures r[i].0 != r[j].0
      {
        if j == |d| {
          assert Keys(d)[i] == d[i].0;
        }
      }
    }
  }

  /** A key present in `d` keeps its position under assignment; the pairs around it are untouched. */
  lemma {:induction false} PutInPlace(d: Dict, k: string, v: string, i: nat)
    requires i < |d| && d[i].0 == k
    requires forall j :: 0 <= j < i ==> d[j].0 != k
    ensures Put(d, k, v) == d[..i] + [(k, v)] + d[i + 1..]
  {
    if i == 0 {
      assert d[..0] + [(k, v)] + d[1..] == [(k, v)] + d[1..];
    } else {
      var tail := d[1..];
      PutInPlace(tail, k, v, i - 1);
      ConsSplit(d, i, (k, v));
      calc {
        Put(d, k, v);
        [d[0]] + Put(tail, k, v);
        [d[0]] + (tail[..i - 1] + [(k, v)] + tail[i..]);
        d[..i] + [(k, v)] + d[i + 1..];
      }
    }
  }

  lemma ConsSplit(d: Dict, i: nat, x: (string, string))
    requires 0 < i < |d|
    ensures [d[0]] + (d[1..][..i - 1] + [x] + d[1..][i..]) == d[..i] + [x] + d[i + 1..]
  {
    assert d[..i] == [d[0]] + d[1..][..i - 1];
    assert d[i + 1..] == d[1..][i..];
  }
}

=== FILE: cnv.dfy ===
/**
 * The CNV reader (`read` in cnv.py): one pass over the file's lines with two
 * phases. Noise lines are skipped in both. In the header phase every other
 * line is dispatched by its prefix into at most one of the instrument, user
 * or software headers, the data file type or Seasave version, or the
 * variable and span declarations; the first non-noise line starting with
 * `*END*` switches to the data phase, where every line that is neither noise
 * nor another `*END*` line is buffered. Afterwards every declared variable
 * is resolved through the variable table.
 */
module Cnv {
  import opened Wrappers
  import opened Text
  import opened Assoc
  import opened Resolver
  import opened Patterns

  /** The dictionary `s` that `read` fills, minus the numeric `data` columns. */
  datatype Record = Record(
    source: string,
    dataFileType: Option<string>,
    seasaveVersion: Option<string>,
    instrumentHeaders: Dict,
    userHeaders: Dict,
    softwareHeaders: Dict,
    vars: seq<string>,
    longNames: seq<string>,
    units: seq<string>,
    spans: seq<seq<string>>,
    kvars: seq<string>,
    kvarsFormat: seq<string>)

  /** The loop state of `read`: the `header_done` flag, the record and `data_lines`. */
  datatype Reader = Reader(headerDone: bool, record: Record, dataLines: seq<string>)

  /** What `read` produces: the record and the stripped data lines handed to the numeric loader. */
  datatype Cnv = Cnv(record: Record, dataLines: seq<string>)

  /** Why `read` raises: a `# name` line one of whose patterns does not match, or a variable the table lacks. */
  datatype ParseError = MalformedName(line: string) | UnresolvedVariable(name: string)

  function EmptyRecord(source: string): Record {
    Record(source, None, None, [], [], [], [], [], [], [], [], [])
  }

  function Initial(source: string): Reader {
    Reader(false, EmptyRecord(source), [])
  }

  /** The instrument header `key = value` lines keep the `* ` marker in the key, sanitised. */
  function InstrumentKey(a: string): string {
    Sanitize(Strip(a))
  }

  /** A user header key: the text before the first `:`, past the three-character marker, stripped and sanitised. */
  function UserKey(a: string): string {
    Sanitize(Strip(Drop(a, 3)))
  }

  /** A header line starting with `* `. */
  function InstrumentLine(rec: Record, line: string): Record {
    if '=' in line then
      var (a, b) := SplitOnce(line, '=');
      rec.(instrumentHeaders := Put(rec.instrumentHeaders, InstrumentKey(a), Strip(b)))
    else if Contains(line, "Data File") then
      rec.(dataFileType := Some(Strip(Drop(line, 3))))
    else if Contains(line, "Seasave") then
      rec.(seasaveVersion := Some(Strip(Drop(line, 3))))
    else
      rec
  }

  /**
   * A header line starting with `**`. The value is the pieces of
   * `line.split(':')` after the first, joined back with `:`.
   */
  function UserLine(rec: Record, line: string): Record {
    var key := UserKey(SplitOnce(line, ':').0);
    var value := Strip(Join(":", SplitAll(line, ':')[1..]));
    rec.(userHeaders := Put(rec.userHeaders, key, value))
  }

  /** A header line starting with `# `: a declaration, a span, or a software header. */
  function HashLine(rec: Record, line: string): Result<Record, ParseError> {
    if Contains(line, "# name") then
      match ParseName(line)
      case None => Failure(MalformedName(line))
      case Some(d) =>
        Success(rec.(vars := rec.vars + [d.name],
                     longNames := rec.longNames + [d.longName],
                     units := rec.units + [d.unit]))
    else if Contains(line, "# span") then
      Success(rec.(spans := rec.spans + [LastTwo(Words(line))]))
    else if '=' in line then
      var (a, b) := SplitOnce(line, '=');
      Success(rec.(softwareHeaders := Put(rec.softwareHeaders, Strip(a), Strip(b))))
    else
      Success(rec)
  }

  /** Dispatch of one stripped, non-noise header line by its prefix. */
  function HeaderLine(rec: Record, line: string): Result<Record, ParseError> {
    if StartsWith(line, "* ") then Success(InstrumentLine(rec, line))
    else if StartsWith(line, "**") then Success(UserLine(rec, line))
    else if StartsWith(line, "# ") then HashLine(rec, line)
    else Success(rec)
  }

  /** A raw line that, once stripped, is XML noise and is skipped in either phase. */
  predicate IsNoise(raw: string) {
    IsXmlLine(Strip(raw))
  }

  /** A raw line that ends the header: not noise, and starting with `*END*` once stripped. */
  predicate IsEnd(raw: string) {
    !IsNoise(raw) && StartsWith(Strip(raw), "*END*")
  }

  /** One iteration of the loop of `read`. */
  function Step(st: Reader, raw: string): Result<Reader, ParseError> {
    var line := Strip(raw);
    if IsXmlLine(line) then Success(st)
    else if StartsWith(line, "*END*") then Success(st.(headerDone := true))
    else if !st.headerDone then
      var rec :- HeaderLine(st.record, line);
      Success(st.(record := rec))
    else
      Success(st.(dataLines := st.dataLines + [line]))
  }

  /** The loop of `read` over every line, stopping at the first failure. */
  function Run(st: Reader, lines: seq<string>): Result<Reader, ParseError>
    decreases |lines|
  {
    if |lines| == 0 then Success(st)
    else
      var st' :- Step(st, lines[0]);
      Run(st', lines[1..])
  }

  /** `vars[i]` is the first declared variable the table does not resolve. */
  ghost predicate FirstUnresolved(table: Table, vars: seq<string>, i: int) {
    0 <= i < |vars| && Lookup(table, vars[i]).None?
    && forall j :: 0 <= j < i ==> Lookup(table, vars[j]).Some?
  }

  /**
   * The variable-name normalisation loop: every declared variable resolved
   * in order; the first one the table lacks aborts (unpacking `None` raises).
   */
  function Normalise(table: Table, vars: seq<string>): (r: Result<(seq<string>, seq<string>), ParseError>)
    ensures r.Success? <==> forall i :: 0 <= i < |vars| ==> Lookup(table, vars[i]).Some?
    ensures r.Success? ==> |r.value.0| == |vars| && |r.value.1| == |vars|
    ensures r.Success? ==> forall i :: 0 <= i < |vars| ==>
              r.value.0[i] == Lookup(table, vars[i]).value.name
              && r.value.1[i] == Lookup(table, vars[i]).value.format
    ensures r.Failure? ==> exists i :: FirstUnresolved(table, vars, i) && r.error == UnresolvedVariable(vars[i])
  {
    if |vars| == 0 then Success(([], []))
    else
      var head := Lookup(table, vars[0]);
      if head.None? then
        assert FirstUnresolved(table, vars, 0);
        Failure(UnresolvedVariable(vars[0]))
      else
        match Normalise(table, vars[1..])
        case Failure(e) =>
          NormaliseTailFails(table, vars, e);
          Failure(e)
        case Success((names, formats)) =>
          NormaliseCons(table, vars, names, formats);
          Success(([head.value.name] + names, [head.value.format] + formats))
  }

  /** A variable the table lacks after a resolved first one is the first unresolved one of the whole list. */
  lemma NormaliseTailFails(table: Table, vars: seq<string>, e: ParseError)
    requires |vars| > 0 && Lookup(table, vars[0]).Some?
    requires exists i :: FirstUnresolved(table, vars[1..], i) && e == UnresolvedVariable(vars[1..][i])
    ensures exists i :: FirstUnresolved(table, vars, i) && e == UnresolvedVariable(vars[i])
    ensures !forall i :: 0 <= i < |vars| ==> Lookup(table, vars[i]).Some?
  {
    var i :| FirstUnresolved(table, vars[1..], i) && e == UnresolvedVariable(vars[1..][i]);
    assert vars[1..][i] == vars[i + 1];
    forall j | 0 <= j < i + 1
      ensures Lookup(table, vars[j]).Some?
    {
      if j > 0 {
        assert vars[1..][j - 1] == vars[j];
      }
    }
    assert FirstUnresolved(table, vars, i + 1);
  }

  /** The resolved first variable in front of the resolved rest resolves the whole list. */
  lemma NormaliseCons(table: Table, vars: seq<string>, names: seq<string>, formats: seq<string>)
    requires |vars| > 0 && Lookup(table, vars[0]).Some?
    requires forall i :: 0 <= i < |vars| - 1 ==> Lookup(table, vars[1..][i]).Some?
    requires |names| == |vars| - 1 && |formats| == |vars| - 1
    requires forall i :: 0 <= i < |vars| - 1 ==>
               names[i] == Lookup(table, vars[1..][i]).value.name
               && formats[i] == Lookup(table, vars[1..][i]).value.format
    ensures forall i :: 0 <= i < |vars| ==> Lookup(table, vars[i]).Some?
    ensures var ns := [Lookup(table, vars[0]).value.name] + names;
            var fs := [Lookup(table, vars[0]).value.format] + formats;
            forall i :: 0 <= i < |vars| ==>
              ns[i] == Lookup(table, vars[i]).value.name
              && fs[i] == Lookup(table, vars[i]).value.format
  {
    forall i | 1 <= i < |vars|
      ensures vars[i] == vars[1..][i - 1]
    {
    }
  }

  /**
   * `read` once the lines are in hand: the header/data pass, then the
   * normalisation of every declared variable.
   */
  function Read(table: Table, source: string, lines: seq<string>): (r: Result<Cnv, ParseError>)
    ensures r.Success? <==>
              && Run(Initial(source), lines).Success?
              && var vars := Run(Initial(source), lines).value.record.vars;
                 forall i :: 0 <= i < |vars| ==> Lookup(table, vars[i]).Some?
    ensures r.Success? ==>
              var st := Run(Initial(source), lines).value;
              && r.value.dataLines == st.dataLines
              && r.value.record == st.record.(kvars := r.value.record.kvars, kvarsFormat := r.value.record.kvarsFormat)
    ensures r.Success? ==>
              var rec := r.value.record;
              && |rec.kvars| == |rec.vars| && |rec.kvarsFormat| == |rec.vars|
              && forall i :: 0 <= i < |rec.vars| ==>
                   && rec.kvars[i] == Lookup(table, rec.vars[i]).value.name
                   && rec.kvarsFormat[i] == Lookup(table, rec.vars[i]).value.format
  {
    var st :- Run(Initial(source), lines);
    var (kvars, kformats) :- Normalise(table, st.record.vars);
    Success(Cnv(st.record.(kvars := kvars, kvarsFormat := kformats), st.dataLines))
  }
}

=== FILE: patterns.dfy ===
/**
 * The regular expressions of cnv.py, each as a left-to-right search whose
 * result is stated against a direct description of what the pattern matches.
 * As in Python's `re`, `.` matches any character except a line feed, while a
 * negated class such as `[^:]` matches line feeds too.
 */
module Patterns {
  import opened Wrappers
  import opened Text

  /** No line feed in `s[a..b]`. */
  ghost predicate NoNewlineIn(s: string, a: nat, b: nat) {
    b <= |s| && forall k :: a <= k < b ==> s[k] != '\n'
  }

  // ---------------------------------------------------------------------
  // is_xml_line: `<.*?>` or `/>\s*$`
  // ---------------------------------------------------------------------

  /** `<.*?>` can match `s[i..j+1]`. */
  ghost predicate TagSpan(s: string, i: nat, j: nat) {
    i < j < |s| && s[i] == '<' && s[j] == '>' && NoNewlineIn(s, i + 1, j)
  }

  /** `/>\s*$` matches from index `k`. */
  ghost predicate SelfCloseAt(s: string, k: nat) {
    k + 2 <= |s| && s[k] == '/' && s[k + 1] == '>' && AllSpace(s[k + 2..])
  }

  /** A `<` at `i` is closed by a `>` before the end of its line. */
  predicate OpensTag(s: string, i: nat) {
    i < |s| && s[i] == '<' && '>' in s[i + 1..Scan(s, i + 1, IsNewline)]
  }

  lemma OpensTagSpec(s: string, i: nat)
    ensures OpensTag(s, i) <==> exists j: nat :: TagSpan(s, i, j)
  {
    if OpensTag(s, i) {
      var e := Scan(s, i + 1, IsNewline);
      var m :| 0 <= m < e - (i + 1) && s[i + 1..e][m] == '>';
      assert TagSpan(s, i, i + 1 + m);
    }
    if j: nat :| TagSpan(s, i, j) {
      var e := Scan(s, i + 1, IsNewline);
      assert j < e;
      assert s[i + 1..e][j - (i + 1)] == '>';
    }
  }

  /** `re.search(r'<.*?>', s)` finds something. */
  function HasTag(s: string): (b: bool)
    ensures b <==> exists i: nat, j: nat :: TagSpan(s, i, j)
  {
    var P := (i: nat) => OpensTag(s, i);
    var r := Leftmost(P, 0, |s|);
    assert r.Some? ==> exists i: nat, j: nat :: TagSpan(s, i, j) by {
      if r.Some? {
        OpensTagSpec(s, r.value);
      }
    }
    assert (exists i: nat, j: nat :: TagSpan(s, i, j)) ==> r.Some? by {
      if i: nat, j: nat :| TagSpan(s, i, j) {
        OpensTagSpec(s, i);
        assert P(i);
      }
    }
    r.Some?
  }

  /** `re.search(r'/>\s*$', s)` finds something. */
  function EndsSelfClosing(s: string): (b: bool)
    ensures b <==> exists k: nat :: SelfCloseAt(s, k)
  {
    var t := RStrip(s);
    assert EndsWith(t, "/>") ==> SelfCloseAt(s, |t| - 2) by {
      if EndsWith(t, "/>") {
        SelfCloseBeforeSpace(s);
      }
    }
    assert (exists k: nat :: SelfCloseAt(s, k)) ==> EndsWith(t, "/>") by {
      if k: nat :| SelfCloseAt(s, k) {
        assert |t| == k + 2;
      }
    }
    EndsWith(t, "/>")
  }

  /** A `/>` at the end of the right-stripped string is a match of `/>\s*$`. */
  lemma SelfCloseBeforeSpace(s: string)
    requires EndsWith(RStrip(s), "/>")
    ensures SelfCloseAt(s, |RStrip(s)| - 2)
  {
    var t := RStrip(s);
    var n := |t|;
    assert t[n - 2..] == "/>";
    assert s[n - 2] == t[n - 2] == t[n - 2..][0] == '/';
    assert s[n - 1] == t[n - 1] == t[n - 2..][1] == '>';
    assert s[n - 2 + 2..] == s[n..];
  }

  /**
   * `is_xml_line`: the line holds an angle-bracket tag on one line, or ends
   * in `/>` once trailing whitespace is ignored.
   */
  function IsXmlLine(s: string): (b: bool)
    ensures b <==> (exists i: nat, j: nat :: TagSpan(s, i, j)) || (exists k: nat :: SelfCloseAt(s, k))
  {
    HasTag(s) || EndsSelfClosing(s)
  }

  /** On a line without line feeds, any `<` followed later by a `>` makes the line noise. */
  lemma XmlLineWithoutNewlines(s: string)
    requires '\n' !in s
    ensures IsXmlLine(s) <==>
              (exists i: nat, j: nat :: i < j < |s| && s[i] == '<' && s[j] == '>')
              || EndsWith(RStrip(s), "/>")
  {
    if i: nat, j: nat :| i < j < |s| && s[i] == '<' && s[j] == '>' {
      assert TagSpan(s, i, j);
    }
  }

  // ---------------------------------------------------------------------
  // The `# name <index> = <raw>: <long name> [<unit>]` declaration
  // ---------------------------------------------------------------------

  /** `# name (\d+)` matches at `p`. */
  predicate IndexAt(s: string, p: nat) {
    p + 8 <= |s| && s[p..p + 7] == "# name " && IsDigit(s[p + 7])
  }

  /** `re.search(r'# name (\d+)', s)` finds something. */
  function HasIndex(s: string): (b: bool)
    ensures b <==> exists p: nat :: IndexAt(s, p)
  {
    var P := (p: nat) => IndexAt(s, p);
    var r := Leftmost(P, 0, |s|);
    assert (exists p: nat :: IndexAt(s, p)) ==> r.Some? by {
      if p: nat :| IndexAt(s, p) {
        assert P(p);
      }
    }
    r.Some?
  }

  /** The fixed two-character lead `l0 l1` followed by one character other than `stop` sits at `p`. */
  predicate LeadAt(s: string, p: nat, l0: char, l1: char, stop: char) {
    p + 3 <= |s| && s[p] == l0 && s[p + 1] == l1 && s[p + 2] != stop
  }

  /** `g` is the longest run starting at `start` that avoids `stop`. */
  ghost predicate MaximalRun(s: string, start: nat, g: string, stop: char) {
    start + |g| <= |s| && s[start..start + |g|] == g && stop !in g
    && (start + |g| == |s| || s[start + |g|] == stop)
  }

  /**
   * The group of `l0 l1 ([^stop]+)`, as in `re.search(r'= ([^:]+)', s).group(1)`:
   * at the leftmost place the lead is followed by a character other than `stop`,
   * the greedy run up to the next `stop` or the end.
   */
  function LeadGroup(s: string, l0: char, l1: char, stop: char): (r: Option<string>)
    ensures r.None? <==> forall p: nat :: !LeadAt(s, p, l0, l1, stop)
    ensures r.Some? ==> |r.value| > 0 && exists p: nat ::
              && LeadAt(s, p, l0, l1, stop)
              && (forall q: nat :: q < p ==> !LeadAt(s, q, l0, l1, stop))
              && MaximalRun(s, p + 2, r.value, stop)
  {
    var P := (p: nat) => LeadAt(s, p, l0, l1, stop);
    match Leftmost(P, 0, |s|)
    case None =>
      assert forall p: nat :: !LeadAt(s, p, l0, l1, stop) by {
        forall p: nat
          ensures !LeadAt(s, p, l0, l1, stop)
        {
          if p < |s| {
            assert !P(p);
          }
        }
      }
      None
    case Some(p) =>
      var e := Scan(s, p + 2, x => x == stop);
      var g := s[p + 2..e];
      assert e > p + 2;
      assert forall q: nat :: q < p ==> !LeadAt(s, q, l0, l1, stop) by {
        forall q: nat | q < p
          ensures !LeadAt(s, q, l0, l1, stop)
        {
          assert !P(q);
        }
      }
      assert MaximalRun(s, p + 2, g, stop);
      Some(g)
  }

  /** `\[(.+?)\]` can match `s[p..q+1]`. */
  ghost predicate BracketSpan(s: string, p: nat, q: nat) {
    p + 2 <= q < |s| && s[p] == '[' && s[q] == ']' && NoNewlineIn(s, p + 1, q)
  }

  /** For a `[` at `p`, the lazily matched `]`: the first one at least two places on, on the same line. */
  function CloseOf(s: string, p: nat): (r: Option<nat>)
    ensures r.Some? ==> BracketSpan(s, p, r.value)
    ensures r.Some? ==> forall q: nat :: q < r.value ==> !BracketSpan(s, p, q)
    ensures r.None? ==> forall q: nat :: !BracketSpan(s, p, q)
  {
    if p < |s| && s[p] == '[' then
      var e := Scan(s, p + 1, IsNewline);
      var P := (k: nat) => k < |s| && s[k] == ']';
      var r := Leftmost(P, p + 2, e);
      assert forall q: nat :: BracketSpan(s, p, q) <==> p + 2 <= q < e && P(q) by {
        forall q: nat
          ensures BracketSpan(s, p, q) <==> p + 2 <= q < e && P(q)
        {
          if BracketSpan(s, p, q) {
            assert q < e;
          }
        }
      }
      r
    else
      None
  }

  /** The unit: the group of the leftmost `\[(.+?)\]` match, or "" when there is none. */
  function UnitOf(s: string): (u: string)
    ensures u == "" <==> forall p: nat, q: nat :: !BracketSpan(s, p, q)
    ensures u != "" ==> exists p: nat, q: nat ::
              && BracketSpan(s, p, q) && u == s[p + 1..q]
              && (forall p': nat, q': nat :: p' < p ==> !BracketSpan(s, p', q'))
              && (forall q': nat :: q' < q ==> !BracketSpan(s, p, q'))
  {
    var P := (p: nat) => CloseOf(s, p).Some?;
    match Leftmost(P, 0, |s|)
    case None =>
      assert forall p: nat, q: nat :: !BracketSpan(s, p, q) by {
        forall p: nat, q: nat
          ensures !BracketSpan(s, p, q)
        {
          if p < |s| {
            assert !P(p);
          }
        }
      }
      ""
    case Some(p) =>
      var q := CloseOf(s, p).value;
      assert forall p': nat, q': nat :: p' < p ==> !BracketSpan(s, p', q') by {
        forall p': nat, q': nat | p' < p
          ensures !BracketSpan(s, p', q')
        {
          assert !P(p');
        }
      }
      assert |s[p + 1..q]| > 0;
      s[p + 1..q]
  }

  /** What a `# name` line declares: the raw variable name, its long name and its unit. */
  datatype Declaration = Declaration(name: string, longName: string, unit: string)

  /**
   * Parsing a `# name` line: the index, `= name` and `: long name` patterns
   * must all match (otherwise `.group` is called on `None` and the read
   * aborts); name and long name are stripped, the unit is taken verbatim.
   */
  function ParseName(line: string): (r: Option<Declaration>)
    ensures r.None? <==>
              || (forall p: nat :: !IndexAt(line, p))
              || (forall p: nat :: !LeadAt(line, p, '=', ' ', ':'))
              || (forall p: nat :: !LeadAt(line, p, ':', ' ', '['))
    ensures r.Some? ==>
              && r.value.name == Strip(LeadGroup(line, '=', ' ', ':').value)
              && r.value.longName == Strip(LeadGroup(line, ':', ' ', '[').value)
              && r.value.unit == UnitOf(line)
  {
    if !HasIndex(line) then None
    else
      match (LeadGroup(line, '=', ' ', ':'), LeadGroup(line, ':', ' ', '['))
      case (Some(name), Some(longName)) => Some(Declaration(Strip(name), Strip(longName), UnitOf(line)))
      case _ => None
  }
}

=== FILE: properties.dfy ===
/**
 * What the reader promises: how each kind of line changes the state, the
 * invariants every step keeps, and how the whole pass splits at the first
 * `*END*` line into a header part and a data part.
 */
module CnvProperties {
  import opened Wrappers
  import opened Text
  import opened Assoc
  import opened Resolver
  import opened Patterns
  import opened Cnv

  // ---------------------------------------------------------------------
  // Which part of the record a line may touch
  // ---------------------------------------------------------------------

  datatype Field = FileType | Seasave | Instrument | User | Software | Declarations | Spans

  /** `b` differs from `a` at most in field `f`. */
  ghost predicate Only(a: Record, b: Record, f: Field) {
    && a.source == b.source && a.kvars == b.kvars && a.kvarsFormat == b.kvarsFormat
    && (f != FileType ==> a.dataFileType == b.dataFileType)
    && (f != Seasave ==> a.seasaveVersion == b.seasaveVersion)
    && (f != Instrument ==> a.instrumentHeaders == b.instrumentHeaders)
    && (f != User ==> a.userHeaders == b.userHeaders)
    && (f != Software ==> a.softwareHeaders == b.softwareHeaders)
    && (f != Declarations ==> a.vars == b.vars && a.longNames == b.longNames && a.units == b.units)
    && (f != Spans ==> a.spans == b.spans)
  }

  /** Noise lines are dropped in either phase: nothing at all changes. */
  lemma NoiseIgnored(st: Reader, raw: string)
    requires IsNoise(raw)
    ensures Step(st, raw) == Success(st)
  {
  }

  /** A line starting with `*END*` (a prefix test) switches to the data phase and is itself stored nowhere. */
  lemma EndSwitchesPhase(st: Reader, raw: string)
    requires IsEnd(raw)
    ensures Step(st, raw) == Success(Reader(true, st.record, st.dataLines))
  {
  }

  /** A non-noise, non-`*END*` line in the header phase goes to the prefix dispatch. */
  lemma StepHeader(st: Reader, raw: string)
    requires !st.headerDone && !IsNoise(raw) && !IsEnd(raw)
    ensures Step(st, raw) == match HeaderLine(st.record, Strip(raw))
              case Failure(e) => Failure(e)
              case Success(rec) => Success(st.(record := rec))
  {
  }

  lemma InstrumentLineOnly(rec: Record, line: string)
    ensures exists f :: Only(rec, InstrumentLine(rec, line), f)
  {
    var b := InstrumentLine(rec, line);
    if '=' in line {
      assert Only(rec, b, Instrument);
    } else if Contains(line, "Data File") {
      assert Only(rec, b, FileType);
    } else {
      assert Only(rec, b, Seasave);
    }
  }

  lemma UserLineOnly(rec: Record, line: string)
    ensures Only(rec, UserLine(rec, line), User)
  {
  }

  lemma HashLineOnly(rec: Record, line: string)
    requires HashLine(rec, line).Success?
    ensures exists f :: Only(rec, HashLine(rec, line).value, f)
  {
    var b := HashLine(rec, line).value;
    if Contains(line, "# name") {
      assert Only(rec, b, Declarations);
    } else if Contains(line, "# span") {
      assert Only(rec, b, Spans);
    } else {
      assert Only(rec, b, Software);
    }
  }

  /** The prefix dispatch changes at most one field of the record. */
  lemma HeaderLineOnly(rec: Record, line: string)
    requires HeaderLine(rec, line).Success?
    ensures exists f :: Only(rec, HeaderLine(rec, line).value, f)
  {
    if StartsWith(line, "* ") {
      InstrumentLineOnly(rec, line);
    } else if StartsWith(line, "**") {
      UserLineOnly(rec, line);
    } else if StartsWith(line, "# ") {
      HashLineOnly(rec, line);
    } else {
      assert Only(rec, rec, Spans);
    }
  }

  /**
   * In the header phase a line never reaches the data buffer, never leaves
   * the phase unless it is the `*END*` line, and changes at most one field.
   */
  lemma HeaderStepTouchesOneField(st: Reader, raw: string)
    requires !st.headerDone && Step(st, raw).Success?
    ensures Step(st, raw).value.dataLines == st.dataLines
    ensures Step(st, raw).value.headerDone <==> IsEnd(raw)
    ensures exists f :: Only(st.record, Step(st, raw).value.record, f)
  {
    if IsNoise(raw) || IsEnd(raw) {
      assert Only(st.record, st.record, Spans);
    } else {
      StepHeader(st, raw);
      HeaderLineOnly(st.record, Strip(raw));
    }
  }

  /** In the data phase only the buffer grows, by the stripped line, unless it is noise or another `*END*` line. */
  lemma DataStepAppends(st: Reader, raw: string)
    requires st.headerDone
    ensures Step(st, raw) == Success(
              if IsNoise(raw) || IsEnd(raw) then st
              else st.(dataLines := st.dataLines + [Strip(raw)]))
  {
  }

  // ---------------------------------------------------------------------
  // The dispatch of header lines
  // ---------------------------------------------------------------------

  /** A non-noise line in the header phase, already stripped. */
  ghost predicate HeaderLineOf(st: Reader, raw: string, line: string) {
    !st.headerDone && line == Strip(raw) && !IsXmlLine(line)
  }

  lemma MarkersExclusive(line: string)
    ensures StartsWith(line, "* ") ==> !StartsWith(line, "*END*") && !StartsWith(line, "**")
    ensures StartsWith(line, "**") ==> !StartsWith(line, "*END*")
    ensures StartsWith(line, "# ") ==> !StartsWith(line, "*END*") && !StartsWith(line, "* ") && !StartsWith(line, "**")
  {
    if StartsWith(line, "* ") {
      assert line[1] == line[..2][1] == ' ';
    }
    if StartsWith(line, "**") {
      assert line[1] == line[..2][1] == '*';
    }
    if StartsWith(line, "# ") {
      assert line[0] == line[..2][0] == '#';
    }
    if StartsWith(line, "*END*") {
      assert line[1] == line[..5][1] == 'E';
    }
  }

  /** A header-phase line that is neither noise nor `*END*` stores what the dispatch returns. */
  lemma HeaderStep(st: Reader, raw: string, line: string, rec: Record)
    requires HeaderLineOf(st, raw, line) && !StartsWith(line, "*END*")
    requires HeaderLine(st.record, line) == Success(rec)
    ensures Step(st, raw) == Success(st.(record := rec))
  {
  }

  /**
   * `* key = value`: exactly one instrument header is set, under the stripped,
   * sanitised text before the first `=`, to the stripped text after it.
   */
  lemma InstrumentAssignment(st: Reader, raw: string, line: string, a: string, b: string)
    requires HeaderLineOf(st, raw, line) && StartsWith(line, "* ")
    requires line == a + "=" + b && '=' !in a
    ensures Step(st, raw) == Success(st.(record := st.record.(
              instrumentHeaders := Put(st.record.instrumentHeaders, Sanitize(Strip(a)), Strip(b)))))
  {
    MarkersExclusive(line);
    var rec := st.record.(instrumentHeaders := Put(st.record.instrumentHeaders, Sanitize(Strip(a)), Strip(b)));
    assert HeaderLine(st.record, line) == Success(rec) by {
      SplitOnceAt(line, '=', a, b);
      assert line[|a|] == '=';
    }
    HeaderStep(st, raw, line, rec);
  }

  /**
   * The instrument header key keeps its `* ` marker, sanitised to `__`,
   * whenever something other than whitespace follows the marker.
   */
  lemma InstrumentKeyMarker(a: string, k: nat)
    requires StartsWith(a, "* ")
    requires 2 <= k < |a| && !IsSpace(a[k])
    ensures StartsWith(InstrumentKey(a), "__")
  {
    assert a[0] == a[..2][0] == '*';
    assert a[1] == a[..2][1] == ' ';
    StripKeepsPrefix(a, k);
    var t := Strip(a);
    assert t[0] == t[..k + 1][0] == '*';
    assert t[1] == t[..k + 1][1] == ' ';
  }

  /** `* ... Data File ...` without `=`: the data file type becomes the line past its first three characters, stripped. */
  lemma DataFileLine(st: Reader, raw: string, line: string)
    requires HeaderLineOf(st, raw, line) && StartsWith(line, "* ")
    requires '=' !in line && Contains(line, "Data File")
    ensures Step(st, raw) == Success(st.(record := st.record.(dataFileType := Some(Strip(line[3..])))))
  {
    MarkersExclusive(line);
    assert |line| >= 3 by {
      var i: nat :| i <= |line| && OccursAt(line, "Data File", i);
    }
    var rec := st.record.(dataFileType := Some(Strip(line[3..])));
    assert HeaderLine(st.record, line) == Success(rec);
    HeaderStep(st, raw, line, rec);
  }

  /** `* ... Seasave ...` without `=` or `Data File`: the Seasave version is set the same way. */
  lemma SeasaveLine(st: Reader, raw: string, line: string)
    requires HeaderLineOf(st, raw, line) && StartsWith(line, "* ")
    requires '=' !in line && !Contains(line, "Data File") && Contains(line, "Seasave")
    ensures Step(st, raw) == Success(st.(record := st.record.(seasaveVersion := Some(Strip(line[3..])))))
  {
    MarkersExclusive(line);
    assert |line| >= 3 by {
      var i: nat :| i <= |line| && OccursAt(line, "Seasave", i);
    }
    var rec := st.record.(seasaveVersion := Some(Strip(line[3..])));
    assert HeaderLine(st.record, line) == Success(rec);
    HeaderStep(st, raw, line, rec);
  }

  /** Any other `* ` line is read and ignored. */
  lemma OtherInstrumentLine(st: Reader, raw: string, line: string)
    requires HeaderLineOf(st, raw, line) && StartsWith(line, "* ")
    requires '=' !in line && !Contains(line, "Data File") && !Contains(line, "Seasave")
    ensures Step(st, raw) == Success(st)
  {
    MarkersExclusive(line);
    assert HeaderLine(st.record, line) == Success(st.record);
    HeaderStep(st, raw, line, st.record);
  }

  /** A header line with none of the `* `, `**` and `# ` prefixes falls through the dispatch and is ignored. */
  lemma OtherHeaderLine(st: Reader, raw: string, line: string)
    requires HeaderLineOf(st, raw, line) && !StartsWith(line, "*END*")
    requires !StartsWith(line, "* ") && !StartsWith(line, "**") && !StartsWith(line, "# ")
    ensures Step(st, raw) == Success(st)
  {
    HeaderStep(st, raw, line, st.record);
  }

  /** A `# ` line that is neither a declaration, a span nor an assignment is ignored. */
  lemma OtherHashLine(st: Reader, raw: string, line: string)
    requires HeaderLineOf(st, raw, line) && StartsWith(line, "# ")
    requires !Contains(line, "# name") && !Contains(line, "# span") && '=' !in line
    ensures Step(st, raw) == Success(st)
  {
    MarkersExclusive(line);
    HeaderStep(st, raw, line, st.record);
  }

  /** The dispatch fails exactly on a `# name` line one of whose patterns does not match. */
  lemma HeaderLineFailure(rec: Record, line: string)
    ensures HeaderLine(rec, line).Failure? <==>
              StartsWith(line, "# ") && Contains(line, "# name") && ParseName(line).None?
  {
    MarkersExclusive(line);
  }

  /**
   * `** key: value`: exactly one user header is set; the key is the text
   * before the first `:` past the three-character marker, stripped and
   * sanitised; the value is everything after the first `:`, later colons
   * kept, stripped.
   */
  lemma UserAssignment(st: Reader, raw: string, line: string, a: string, b: string)
    requires HeaderLineOf(st, raw, line) && StartsWith(line, "**")
    requires line == a + ":" + b && ':' !in a
    ensures Step(st, raw) == Success(st.(record := st.record.(
              userHeaders := Put(st.record.userHeaders, Sanitize(Strip(Drop(a, 3))), Strip(b)))))
  {
    MarkersExclusive(line);
    var rec := st.record.(userHeaders := Put(st.record.userHeaders, Sanitize(Strip(Drop(a, 3))), Strip(b)));
    assert HeaderLine(st.record, line) == Success(rec) by {
      SplitOnceAt(line, ':', a, b);
      AfterFirstSeparator(line, ':');
    }
    HeaderStep(st, raw, line, rec);
  }

  lemma UserLineNoColon(rec: Record, line: string)
    requires ':' !in line
    ensures UserLine(rec, line) == rec.(userHeaders := Put(rec.userHeaders, UserKey(line), ""))
  {
    assert SplitAll(line, ':') == [line];
    assert Join(":", []) == "";
    assert Strip("") == "";
  }

  /** A `**` line without a `:` still sets a user header, with an empty value. */
  lemma UserLineWithoutColon(st: Reader, raw: string, line: string)
    requires HeaderLineOf(st, raw, line) && StartsWith(line, "**")
    requires ':' !in line
    ensures Step(st, raw) == Success(st.(record := st.record.(
              userHeaders := Put(st.record.userHeaders, Sanitize(Strip(Drop(line, 3))), ""))))
  {
    MarkersExclusive(line);
    UserLineNoColon(st.record, line);
    HeaderStep(st, raw, line, UserLine(st.record, line));
  }

  /**
   * A `# name` line appends one element to each of the variables, long names
   * and units, in encounter order whatever index it declares; if any of its
   * patterns fails to match the read aborts with that line.
   */
  lemma DeclarationLine(st: Reader, raw: string, line: string)
    requires HeaderLineOf(st, raw, line) && StartsWith(line, "# ") && Contains(line, "# name")
    ensures Step(st, raw).Failure? <==> ParseName(line).None?
    ensures Step(st, raw).Failure? ==> Step(st, raw).error == MalformedName(line)
    ensures Step(st, raw).Success? ==>
              var d := ParseName(line).value;
              Step(st, raw).value == st.(record := st.record.(
                vars := st.record.vars + [d.name],
                longNames := st.record.longNames + [d.longName],
                units := st.record.units + [d.unit]))
  {
    MarkersExclusive(line);
  }

  /** A `# span` line (not a `# name` one) appends its last two whitespace-separated tokens. */
  lemma SpanLine(st: Reader, raw: string, line: string)
    requires HeaderLineOf(st, raw, line) && StartsWith(line, "# ")
    requires !Contains(line, "# name") && Contains(line, "# span")
    ensures Step(st, raw) == Success(st.(record := st.record.(spans := st.record.spans + [LastTwo(Words(line))])))
    ensures |LastTwo(Words(line))| == 2
  {
    MarkersExclusive(line);
    SpanLineHasTwoWords(line);
    var rec := st.record.(spans := st.record.spans + [LastTwo(Words(line))]);
    assert HeaderLine(st.record, line) == Success(rec);
    HeaderStep(st, raw, line, rec);
  }

  /** A line starting with `# ` and holding `# span` splits into at least two words. */
  lemma SpanLineHasTwoWords(line: string)
    requires StartsWith(line, "# ") && Contains(line, "# span")
    ensures |Words(line)| >= 2
  {
    var i: nat :| i <= |line| && OccursAt(line, "# span", i);
    assert line[..2] == "# ";
    assert line[i + 2] == 's';
    var rest := line[1..];
    assert Words(line) == ["#"] + Words(rest) by {
      WordsCons("#", rest);
      assert line == "#" + rest;
    }
    assert |Words(rest)| >= 1 by {
      WordsNonEmpty(rest, i + 1);
    }
  }

  /** A string with a non-whitespace character splits into at least one word. */
  lemma {:induction false} WordsNonEmpty(s: string, k: nat)
    requires k < |s| && !IsSpace(s[k])
    ensures |Words(s)| >= 1
    decreases |s|
  {
    if IsSpace(s[0]) {
      WordsNonEmpty(s[1..], k - 1);
    }
  }

  /**
   * A `# key = value` line (neither `# name` nor `# span`) sets one software
   * header under the stripped, unsanitised key, marker included.
   */
  lemma SoftwareAssignment(st: Reader, raw: string, line: string, a: string, b: string)
    requires HeaderLineOf(st, raw, line) && StartsWith(line, "# ")
    requires !Contains(line, "# name") && !Contains(line, "# span")
    requires line == a + "=" + b && '=' !in a
    ensures Step(st, raw) == Success(st.(record := st.record.(
              softwareHeaders := Put(st.record.softwareHeaders, Strip(a), Strip(b)))))
  {
    MarkersExclusive(line);
    var rec := st.record.(softwareHeaders := Put(st.record.softwareHeaders, Strip(a), Strip(b)));
    assert HeaderLine(st.record, line) == Success(rec) by {
      SplitOnceAt(line, '=', a, b);
      assert line[|a|] == '=';
    }
    HeaderStep(st, raw, line, rec);
  }

  /** The tokens of the example span line. */
  lemma ExampleSpanWords()
    ensures Words(ExampleSpan) == ["#", "span", "0", "=", "1", "23.4", "56.7"]
  {
    var t0 := ["56.7"];
    var t1 := ["23.4"] + t0;
    var t2 := ["1"] + t1;
    var t3 := ["="] + t2;
    var t4 := ["0"] + t3;
    var t5 := ["span"] + t4;
    var t6 := ["#"] + t5;
    UnwordsCons("23.4", t0);
    UnwordsCons("1", t1);
    UnwordsCons("=", t2);
    UnwordsCons("0", t3);
    UnwordsCons("span", t4);
    UnwordsCons("#", t5);
    assert Unwords(t6) == ExampleSpan;
    assert t6 == ["#", "span", "0", "=", "1", "23.4", "56.7"];
    WordsUnwords(t6);
  }

  /** The example span line `# span 0 = 1 23.4 56.7` keeps its last two tokens. */
  lemma SpanExample()
    ensures LastTwo(Words(ExampleSpan)) == ["23.4", "56.7"]
  {
    ExampleSpanWords();
  }

  // ---------------------------------------------------------------------
  // Invariants of the record
  // ---------------------------------------------------------------------

  ghost predicate SanitizedKeys(d: Dict) {
    forall i :: 0 <= i < |d| ==> AllWordChars(d[i].0)
  }

  /**
   * The record invariants: parallel declaration lists, sanitised instrument
   * and user header keys, and no header key stored twice.
   */
  ghost predicate Wellformed(rec: Record) {
    && |rec.vars| == |rec.longNames| == |rec.units|
    && SanitizedKeys(rec.instrumentHeaders) && SanitizedKeys(rec.userHeaders)
    && UniqueKeys(rec.instrumentHeaders) && UniqueKeys(rec.userHeaders) && UniqueKeys(rec.softwareHeaders)
  }

  lemma PutSanitizedKeys(d: Dict, k: string, v: string)
    requires SanitizedKeys(d) && AllWordChars(k)
    ensures SanitizedKeys(Put(d, k, v))
  {
    var r := Put(d, k, v);
    if k in Keys(d) {
      forall i | 0 <= i < |r|
        ensures AllWordChars(r[i].0)
      {
        assert r[i].0 == Keys(r)[i] == Keys(d)[i] == d[i].0;
      }
    }
  }

  lemma InstrumentLineWellformed(rec: Record, line: string)
    requires Wellformed(rec)
    ensures Wellformed(InstrumentLine(rec, line))
  {
    if '=' in line {
      var (a, b) := SplitOnce(line, '=');
      PutSanitizedKeys(rec.instrumentHeaders, InstrumentKey(a), Strip(b));
      PutUniqueKeys(rec.instrumentHeaders, InstrumentKey(a), Strip(b));
    }
  }

  lemma UserLineWellformed(rec: Record, line: string)
    requires Wellformed(rec)
    ensures Wellformed(UserLine(rec, line))
  {
    var key := UserKey(SplitOnce(line, ':').0);
    var value := Strip(Join(":", SplitAll(line, ':')[1..]));
    PutSanitizedKeys(rec.userHeaders, key, value);
    PutUniqueKeys(rec.userHeaders, key, value);
  }

  lemma HashLineWellformed(rec: Record, line: string)
    requires Wellformed(rec) && HashLine(rec, line).Success?
    ensures Wellformed(HashLine(rec, line).value)
  {
    if !Contains(line, "# name") && !Contains(line, "# span") && '=' in line {
      var (a, b) := SplitOnce(line, '=');
      PutUniqueKeys(rec.softwareHeaders, Strip(a), Strip(b));
    }
  }

  lemma HeaderLineWellformed(rec: Record, line: string)
    requires Wellformed(rec) && HeaderLine(rec, line).Success?
    ensures Wellformed(HeaderLine(rec, line).value)
  {
    if StartsWith(line, "* ") {
      InstrumentLineWellformed(rec, line);
    } else if StartsWith(line, "**") {
      UserLineWellformed(rec, line);
    } else if StartsWith(line, "# ") {
      HashLineWellformed(rec, line);
    }
  }

  lemma StepPreservesWellformed(st: Reader, raw: string)
    requires Wellformed(st.record) && Step(st, raw).Success?
    ensures Wellformed(Step(st, raw).value.record)
  {
    if !st.headerDone && !IsNoise(raw) && !IsEnd(raw) {
      StepHeader(st, raw);
      HeaderLineWellformed(st.record, Strip(raw));
    }
  }

  /** A run from a well-formed state ends in a well-formed state. */
  lemma {:induction false} RunPreservesWellformed(st: Reader, lines: seq<string>)
    requires Wellformed(st.record) && Run(st, lines).Success?
    ensures Wellformed(Run(st, lines).value.record)
    decreases |lines|
  {
    if |lines| > 0 {
      StepPreservesWellformed(st, lines[0]);
      RunPreservesWellformed(Step(st, lines[0]).value, lines[1..]);
    }
  }

  /** Whatever the file, a successful read ends with parallel declaration lists and sanitised, distinct keys. */
  lemma ReadWellformed(table: Table, source: string, lines: seq<string>)
    requires Read(table, source, lines).Success?
    ensures Wellformed(Read(table, source, lines).value.record)
    ensures |Read(table, source, lines).value.record.kvars| == |Read(table, source, lines).value.record.units|
  {
    RunPreservesWellformed(Initial(source), lines);
  }

  // ---------------------------------------------------------------------
  // The pass as a whole
  //
  // AppendTail, EmptyTail, AppendAssoc, SplitAround and EmptyAppend are
  // plain sequence identities, kept as lemmas of their own so that the
  // proofs that use them stay small.
  // ---------------------------------------------------------------------

  /** Continue a run that has not failed. */
  function AndThen(r: Result<Reader, ParseError>, lines: seq<string>): Result<Reader, ParseError> {
    match r
    case Failure(e) => Failure(e)
    case Success(st) => Run(st, lines)
  }

  lemma AppendTail(a: seq<string>, b: seq<string>)
    requires |a| > 0
    ensures (a + b)[0] == a[0] && (a + b)[1..] == a[1..] + b
  {
  }

  /** One iteration of the pass followed by the rest of it. */
  lemma RunUnfold(st: Reader, lines: seq<string>)
    requires |lines| > 0
    ensures Run(st, lines) == AndThen(Step(st, lines[0]), lines[1..])
  {
  }

  /** The pass over `a + b` is the pass over `a` continued over `b`. */
  lemma {:induction false} RunAppend(st: Reader, a: seq<string>, b: seq<string>)
    ensures Run(st, a + b) == AndThen(Run(st, a), b)
    decreases |a|
  {
    if |a| == 0 {
      assert a + b == b;
    } else {
      var r := Step(st, a[0]);
      AppendTail(a, b);
      calc {
        Run(st, a + b);
        { RunUnfold(st, a + b); }
        AndThen(Step(st, (a + b)[0]), (a + b)[1..]);
        AndThen(r, a[1..] + b);
        { if r.Success? { RunAppend(r.value, a[1..], b); } }
        AndThen(AndThen(r, a[1..]), b);
        { RunUnfold(st, a); }
        AndThen(Run(st, a), b);
      }
    }
  }

  /** The lines the data phase buffers: stripped, in order, without noise and `*END*` lines. */
  function KeptLines(lines: seq<string>): (kept: seq<string>)
    ensures |kept| <= |lines|
  {
    if |lines| == 0 then []
    else if IsNoise(lines[0]) || IsEnd(lines[0]) then KeptLines(lines[1..])
    else [Strip(lines[0])] + KeptLines(lines[1..])
  }

  /** Once in the data phase the pass only appends the kept lines to the buffer and never fails. */
  lemma {:induction false} RunDataPhase(st: Reader, lines: seq<string>)
    requires st.headerDone
    ensures Run(st, lines) == Success(st.(dataLines := st.dataLines + KeptLines(lines)))
    decreases |lines|
  {
    if |lines| == 0 {
      EmptyTail(st.dataLines);
    } else {
      var kept := KeptHead(lines);
      var st' := st.(dataLines := st.dataLines + kept);
      assert Step(st, lines[0]) == Success(st') by {
        DataStepAppends(st, lines[0]);
        EmptyTail(st.dataLines);
      }
      RunUnfold(st, lines);
      RunDataPhase(st', lines[1..]);
      AppendAssoc(st.dataLines, kept, KeptLines(lines[1..]));
    }
  }

  /** What the data phase keeps of the first line. */
  function KeptHead(lines: seq<string>): (kept: seq<string>)
    requires |lines| > 0
    ensures KeptLines(lines) == kept + KeptLines(lines[1..])
  {
    if IsNoise(lines[0]) || IsEnd(lines[0]) then
      assert KeptLines(lines) == [] + KeptLines(lines[1..]);
      []
    else [Strip(lines[0])]
  }

  lemma EmptyTail(xs: seq<string>)
    ensures xs + [] == xs
  {
  }

  lemma AppendAssoc(a: seq<string>, b: seq<string>, c: seq<string>)
    ensures a + b + c == a + (b + c)
  {
  }

  /** Before any `*END*` line the pass stays in the header phase and buffers nothing. */
  lemma {:induction false} RunHeaderPhase(st: Reader, lines: seq<string>)
    requires !st.headerDone
    requires forall j :: 0 <= j < |lines| ==> !IsEnd(lines[j])
    requires Run(st, lines).Success?
    ensures !Run(st, lines).value.headerDone
    ensures Run(st, lines).value.dataLines == st.dataLines
    decreases |lines|
  {
    if |lines| > 0 {
      HeaderStepTouchesOneField(st, lines[0]);
      RunHeaderPhase(Step(st, lines[0]).value, lines[1..]);
    }
  }

  /**
   * The pass splits at the first `*END*` line: the record is the one built
   * from the lines before it, and the data buffer holds exactly the kept
   * lines after it, in order.
   */
  lemma SplitAtEnd(st: Reader, lines: seq<string>, k: nat)
    requires !st.headerDone
    requires k < |lines| && IsEnd(lines[k])
    requires forall j :: 0 <= j < k ==> !IsEnd(lines[j])
    ensures Run(st, lines) == match Run(st, lines[..k])
              case Failure(e) => Failure(e)
              case Success(h) => Success(Reader(true, h.record, st.dataLines + KeptLines(lines[k + 1..])))
  {
    SplitAround(lines, k);
    var tail := [lines[k]] + lines[k + 1..];
    RunAppend(st, lines[..k], tail);
    var r := Run(st, lines[..k]);
    if r.Success? {
      var h := r.value;
      RunHeaderPhase(st, lines[..k]);
      RunUnfold(h, tail);
      EndSwitchesPhase(h, lines[k]);
      RunDataPhase(Reader(true, h.record, h.dataLines), lines[k + 1..]);
    }
  }

  lemma SplitAround(lines: seq<string>, k: nat)
    requires k < |lines|
    ensures lines == lines[..k] + ([lines[k]] + lines[k + 1..])
    ensures ([lines[k]] + lines[k + 1..])[0] == lines[k]
    ensures ([lines[k]] + lines[k + 1..])[1..] == lines[k + 1..]
    ensures forall j :: 0 <= j < k ==> lines[..k][j] == lines[j]
  {
  }

  /** The index of the first non-noise `*END*` line, if any. */
  function FirstEnd(lines: seq<string>): (r: Option<nat>)
    ensures r.Some? ==> r.value < |lines| && IsEnd(lines[r.value])
    ensures r.Some? ==> forall j :: 0 <= j < r.value ==> !IsEnd(lines[j])
    ensures r.None? ==> forall j :: 0 <= j < |lines| ==> !IsEnd(lines[j])
  {
    var P := (j: nat) => j < |lines| && IsEnd(lines[j]);
    var r := Leftmost(P, 0, |lines|);
    assert forall j :: 0 <= j < |lines| ==> (P(j) <==> IsEnd(lines[j]));
    r
  }

  /**
   * The header part of a CNV file: the lines before the first `*END*` line,
   * or all of them when there is none.
   */
  function HeaderSection(lines: seq<string>): seq<string> {
    match FirstEnd(lines)
    case None => lines
    case Some(k) => lines[..k]
  }

  /** The data lines of a CNV file: the kept lines after the first `*END*` line, none when there is none. */
  function DataSection(lines: seq<string>): seq<string> {
    match FirstEnd(lines)
    case None => []
    case Some(k) => KeptLines(lines[k + 1..])
  }

  /**
   * The pass succeeds exactly when it succeeds on the header section; its
   * record is the one the header section builds, and it buffers exactly the
   * data section.
   */
  lemma RunSections(st: Reader, lines: seq<string>)
    requires !st.headerDone
    ensures Run(st, lines).Success? <==> Run(st, HeaderSection(lines)).Success?
    ensures Run(st, lines).Success? ==>
              && Run(st, lines).value.record == Run(st, HeaderSection(lines)).value.record
              && Run(st, lines).value.dataLines == st.dataLines + DataSection(lines)
  {
    var e := FirstEnd(lines);
    SectionsAt(lines);
    if e.None? {
      NoEndSections(st, lines);
    } else {
      EndSections(st, lines, e.value);
    }
  }

  /** The two sections, by where the first `*END*` line is. */
  lemma SectionsAt(lines: seq<string>)
    ensures FirstEnd(lines).None? ==> HeaderSection(lines) == lines && DataSection(lines) == []
    ensures FirstEnd(lines).Some? ==>
              var k := FirstEnd(lines).value;
              HeaderSection(lines) == lines[..k] && DataSection(lines) == KeptLines(lines[k + 1..])
  {
  }

  /** Without an `*END*` line the whole file is header and nothing is buffered. */
  lemma NoEndSections(st: Reader, lines: seq<string>)
    requires !st.headerDone
    requires forall j :: 0 <= j < |lines| ==> !IsEnd(lines[j])
    ensures Run(st, lines).Success? ==> Run(st, lines).value.dataLines == st.dataLines
  {
    if Run(st, lines).Success? {
      RunHeaderPhase(st, lines);
      EmptyTail(st.dataLines);
    }
  }

  /** With a first `*END*` line at `k`, the header is the lines before it and the buffer the kept lines after it. */
  lemma EndSections(st: Reader, lines: seq<string>, k: nat)
    requires !st.headerDone
    requires k < |lines| && IsEnd(lines[k])
    requires forall j :: 0 <= j < k ==> !IsEnd(lines[j])
    ensures Run(st, lines).Success? <==> Run(st, lines[..k]).Success?
    ensures Run(st, lines).Success? ==>
              && Run(st, lines).value.record == Run(st, lines[..k]).value.record
              && Run(st, lines).value.dataLines == st.dataLines + KeptLines(lines[k + 1..])
  {
    SplitAtEnd(st, lines, k);
  }

  /**
   * The pass and the normalisation succeed exactly when the header section
   * parses and every variable it declares resolves.
   */
  lemma ReadSucceeds(table: Table, source: string, lines: seq<string>)
    ensures Read(table, source, lines).Success? <==>
              && Run(Initial(source), HeaderSection(lines)).Success?
              && var vars := Run(Initial(source), HeaderSection(lines)).value.record.vars;
                 forall i :: 0 <= i < |vars| ==> Lookup(table, vars[i]).Some?
  {
    RunSections(Initial(source), lines);
  }

  /**
   * The record `read` returns is determined by the header section alone, and
   * its data lines are exactly the data section.
   */
  lemma ReadSections(table: Table, source: string, lines: seq<string>)
    requires Read(table, source, lines).Success?
    ensures Run(Initial(source), HeaderSection(lines)).Success?
    ensures Read(table, source, lines).value.dataLines == DataSection(lines)
    ensures Read(table, source, lines).value.record.vars == Run(Initial(source), HeaderSection(lines)).value.record.vars
    ensures Read(table, source, lines).value.record.instrumentHeaders
            == Run(Initial(source), HeaderSection(lines)).value.record.instrumentHeaders
  {
    var st := Initial(source);
    RunSections(st, lines);
    var fin := Run(st, lines).value;
    var out := Read(table, source, lines).value;
    assert out.dataLines == fin.dataLines;
    assert fin.dataLines == [] + DataSection(lines);
    EmptyAppend(DataSection(lines));
    assert out.record.vars == fin.record.vars;
    assert out.record.instrumentHeaders == fin.record.instrumentHeaders;
  }

  lemma EmptyAppend(xs: seq<string>)
    ensures [] + xs == xs
  {
  }

  /** A line with neither `<` nor `/` is never noise. */
  lemma PlainLineNotXml(s: string)
    requires '<' !in s && '/' !in s
    ensures !IsXmlLine(s)
  {
  }

  /** An example span line. */
  const ExampleSpan: string := "# span 0 = 1 23.4 56.7"

  lemma ExampleSpanStripped()
    ensures Strip(ExampleSpan) == ExampleSpan
  {
    StripStripped(ExampleSpan);
  }

  lemma ExampleSpanNotXml()
    ensures !IsXmlLine(ExampleSpan)
  {
    PlainLineNotXml(ExampleSpan);
  }

  lemma ExampleSpanIsSpan()
    ensures StartsWith(ExampleSpan, "# ") && Contains(ExampleSpan, "# span") && !Contains(ExampleSpan, "# name")
  {
    assert OccursAt(ExampleSpan, "# span", 0);
    assert 'm' !in ExampleSpan;
    if Contains(ExampleSpan, "# name") {
      ContainsChar(ExampleSpan, "# name", 4);
    }
  }

  /** The example span line, read first, records one span and nothing else. */
  lemma ExampleSpanStep(source: string)
    ensures Step(Initial(source), ExampleSpan)
            == Success(Reader(false, EmptyRecord(source).(spans := [["23.4", "56.7"]]), []))
  {
    var st := Initial(source);
    ExampleSpanStripped();
    ExampleSpanNotXml();
    ExampleSpanIsSpan();
    SpanLine(st, ExampleSpan, ExampleSpan);
    SpanExample();
    assert st.record.spans + [LastTwo(Words(ExampleSpan))] == [["23.4", "56.7"]];
  }

  /**
   * Spans are not tied to declarations: a file whose only line is a `# span`
   * line reads to one span and no variables.
   */
  lemma SpanBeforeDeclaration(source: string)
    ensures Run(Initial(source), [ExampleSpan])
            == Success(Reader(false, EmptyRecord(source).(spans := [["23.4", "56.7"]]), []))
  {
    ExampleSpanStep(source);
    RunUnfold(Initial(source), [ExampleSpan]);
    assert [ExampleSpan][0] == ExampleSpan && [ExampleSpan][1..] == [];
  }

  /** An example data-file line. */
  const ExampleDataFile: string := "* Data File: test"

  lemma ExampleDataFileStripped()
    ensures Strip(ExampleDataFile) == ExampleDataFile
  {
    StripStripped(ExampleDataFile);
  }

  lemma ExampleDataFileNotXml()
    ensures !IsXmlLine(ExampleDataFile)
  {
    PlainLineNotXml(ExampleDataFile);
  }

  lemma ExampleDataFileIsInstrument()
    ensures StartsWith(ExampleDataFile, "* ") && '=' !in ExampleDataFile
  {
  }

  lemma ExampleDataFileMentionsDataFile()
    ensures Contains(ExampleDataFile, "Data File")
  {
    assert OccursAt(ExampleDataFile, "Data File", 2);
  }

  /**
   * Read in the header phase, the example data-file line `* Data File: test` sets
   * the data file type to `ata File: test`: `line[3:]` drops the marker and
   * the first letter.
   */
  lemma DataFileExample(st: Reader)
    requires !st.headerDone
    ensures Step(st, ExampleDataFile) == Success(st.(record := st.record.(dataFileType := Some("ata File: test"))))
  {
    ExampleDataFileStripped();
    ExampleDataFileNotXml();
    ExampleDataFileIsInstrument();
    ExampleDataFileMentionsDataFile();
    DataFileLine(st, ExampleDataFile, ExampleDataFile);
    ExampleDataFileValue();
  }

  lemma ExampleDataFileValue()
    ensures Strip(ExampleDataFile[3..]) == "ata File: test"
  {
    assert ExampleDataFile[3..] == "ata File: test";
    StripStripped("ata File: test");
  }
}

=== FILE: resolver.dfy ===
/**
 * `rename_sbs_variable`: maps a raw Sea-Bird variable token to the canonical
 * name, output format and unit of the first table entry that lists it as an
 * alias. The table is loaded once from a JSON resource; here it is a parameter.
 */
module Resolver {
  import opened Wrappers

  /** The canonical triple `(kname, kformat, kunits)`. */
  datatype Canonical = Canonical(name: string, format: string, units: string)

  /** One record of the variable table: its `sbs_variable` aliases and canonical triple. */
  datatype Entry = Entry(aliases: seq<string>, target: Canonical)

  type Table = seq<Entry>

  /** Entry `i` is the first one of `table` listing `raw` as an alias. */
  ghost predicate FirstMatch(table: Table, raw: string, i: int) {
    0 <= i < |table| && raw in table[i].aliases
    && forall j :: 0 <= j < i ==> raw !in table[j].aliases
  }

  /** The linear first-match search of the variable table. */
  function Lookup(table: Table, raw: string): (r: Option<Canonical>)
    ensures r.None? <==> forall i :: 0 <= i < |table| ==> raw !in table[i].aliases
    ensures r.Some? ==> exists i :: FirstMatch(table, raw, i) && r.value == table[i].target
  {
    if |table| == 0 then None
    else if raw in table[0].aliases then
      assert FirstMatch(table, raw, 0);
      Some(table[0].target)
    else
      var r := Lookup(table[1..], raw);
      assert r.Some? ==> exists i :: FirstMatch(table, raw, i) && r.value == table[i].target by {
        if r.Some? {
          var i :| FirstMatch(table[1..], raw, i) && r.value == table[1..][i].target;
          assert FirstMatch(table, raw, i + 1);
        }
      }
      assert forall i :: 1 <= i < |table| ==> table[i] == table[1..][i - 1];
      r
  }

  /** The first matching entry decides: later entries listing the same alias are never consulted. */
  lemma LookupFirstWins(table: Table, raw: string, i: nat)
    requires FirstMatch(table, raw, i)
    ensures Lookup(table, raw) == Some(table[i].target)
  {
  }
}

=== FILE: text.dfy ===
/**
 * The string primitives the CNV reader relies on: Python's `strip`, `split`,
 * `':'.join`, slicing past the end, `in`, `startswith`, and `re.sub(r'\W', '_', ...)`.
 * Whitespace is space, tab, CR and LF; word characters are ASCII letters,
 * digits and the underscore.
 */
module Text {
  import opened Wrappers

  predicate IsSpace(c: char) {
    c == ' ' || c == '\t' || c == '\r' || c == '\n'
  }

  predicate IsNewline(c: char) {
    c == '\n'
  }

  predicate IsDigit(c: char) {
    '0' <= c <= '9'
  }

  /** The characters Python's `\w` matches (ASCII reading). */
  predicate IsWordChar(c: char) {
    'a' <= c <= 'z' || 'A' <= c <= 'Z' || '0' <= c <= '9' || c == '_'
  }

  ghost predicate AllSpace(s: string) {
    forall k :: 0 <= k < |s| ==> IsSpace(s[k])
  }

  /** Neither end of `s` is whitespace. */
  ghost predicate IsStripped(s: string) {
    |s| > 0 ==> !IsSpace(s[0]) && !IsSpace(s[|s| - 1])
  }

  predicate StartsWith(s: string, p: string) {
    |p| <= |s| && s[..|p|] == p
  }

  predicate EndsWith(s: string, p: string) {
    |p| <= |s| && s[|s| - |p|..] == p
  }

  predicate OccursAt(s: string, p: string, i: nat) {
    i + |p| <= |s| && s[i..i + |p|] == p
  }

  /** Python's `p in s` for a string `p`. */
  predicate Contains(s: string, p: string) {
    exists i: nat | i <= |s| :: OccursAt(s, p, i)
  }

  /** Python's `s[n:]`: empty when `n` is past the end. */
  function Drop(s: string, n: nat): (r: string)
    ensures |r| == if n <= |s| then |s| - n else 0
    ensures forall k :: 0 <= k < |r| ==> r[k] == s[n + k]
  {
    if n <= |s| then s[n..] else ""
  }

  /**
   * The first index at or after `i` whose character satisfies `stop`,
   * or `|s|` when there is none.
   */
  function Scan(s: string, i: nat, stop: char -> bool): (e: nat)
    requires i <= |s|
    ensures i <= e <= |s|
    ensures forall k :: i <= k < e ==> !stop(s[k])
    ensures e < |s| ==> stop(s[e])
    decreases |s| - i
  {
    if i == |s| then i
    else if stop(s[i]) then i
    else Scan(s, i + 1, stop)
  }

  /** The stopping point of a scan is determined by its two properties. */
  lemma ScanUnique(s: string, i: nat, stop: char -> bool, e: nat)
    requires i <= e <= |s|
    requires forall k :: i <= k < e ==> !stop(s[k])
    requires e < |s| ==> stop(s[e])
    ensures Scan(s, i, stop) == e
  {
    var e' := Scan(s, i, stop);
  }

  /** The least `p` in `[lo, hi)` with `P(p)`: a left-to-right search. */
  function Leftmost(P: nat -> bool, lo: nat, hi: nat): (r: Option<nat>)
    ensures r.Some? ==> lo <= r.value < hi && P(r.value)
    ensures r.Some? ==> forall q :: lo <= q < r.value ==> !P(q)
    ensures r.None? ==> forall q :: lo <= q < hi ==> !P(q)
    decreases hi - lo
  {
    if hi <= lo then None
    else if P(lo) then Some(lo)
    else Leftmost(P, lo + 1, hi)
  }

  /** The number of leading whitespace characters: where `str.lstrip()` starts. */
  function Indent(s: string): (a: nat)
    ensures a <= |s|
    ensures forall k :: 0 <= k < a ==> IsSpace(s[k])
    ensures a < |s| ==> !IsSpace(s[a])
  {
    Scan(s, 0, c => !IsSpace(c))
  }

  /** Where `s[..e]` ends once its trailing whitespace is removed. */
  function TrimEnd(s: string, e: nat): (b: nat)
    requires e <= |s|
    ensures b <= e
    ensures forall k :: b <= k < e ==> IsSpace(s[k])
    ensures b > 0 ==> !IsSpace(s[b - 1])
    decreases e
  {
    if e > 0 && IsSpace(s[e - 1]) then TrimEnd(s, e - 1) else e
  }

  /** Python's `str.rstrip()`. */
  function RStrip(s: string): (r: string)
    ensures |r| <= |s| && r == s[..|r|]
    ensures AllSpace(s[|r|..])
    ensures |r| > 0 ==> !IsSpace(r[|r| - 1])
  {
    s[..TrimEnd(s, |s|)]
  }

  /** `r` is `s` with a whitespace prefix of length `a` and a whitespace suffix removed. */
  ghost predicate PaddedBy(s: string, r: string, a: nat) {
    && a + |r| <= |s| && s[a..a + |r|] == r
    && (forall k :: 0 <= k < a ==> IsSpace(s[k]))
    && (forall k :: a + |r| <= k < |s| ==> IsSpace(s[k]))
  }

  /** Python's `str.strip()`. */
  function Strip(s: string): (r: string)
    ensures IsStripped(r)
    ensures PaddedBy(s, r, Indent(s))
  {
    var a := Indent(s);
    if a == |s| then ""
    else
      var b := TrimEnd(s, |s|);
      assert a < b;
      s[a..b]
  }

  /** A string with no whitespace at either end is left alone by `Strip`. */
  lemma StripStripped(s: string)
    requires IsStripped(s)
    ensures Strip(s) == s
  {
    if |s| > 0 {
      assert Indent(s) == 0;
      assert TrimEnd(s, |s|) == |s|;
      assert s[0..|s|] == s;
    }
  }

  /**
   * Stripping a string that starts with a non-space character keeps its
   * first `k + 1` characters when the one at `k` is not a space.
   */
  lemma StripKeepsPrefix(s: string, k: nat)
    requires |s| > 0 && !IsSpace(s[0])
    requires k < |s| && !IsSpace(s[k])
    ensures |Strip(s)| > k && Strip(s)[..k + 1] == s[..k + 1]
  {
    assert Indent(s) == 0;
    assert TrimEnd(s, |s|) > k;
  }

  /** An occurrence of `p` puts each character of `p` in `s`. */
  lemma ContainsChar(s: string, p: string, k: nat)
    requires Contains(s, p) && k < |p|
    ensures p[k] in s
  {
    var i: nat :| i <= |s| && OccursAt(s, p, i);
    assert s[i..i + |p|][k] == s[i + k];
  }

  /** `Strip` is idempotent. */
  lemma StripIdempotent(s: string)
    ensures Strip(Strip(s)) == Strip(s)
  {
    StripStripped(Strip(s));
  }

  /** Python's `re.sub(r'\W', '_', s)`. */
  function Sanitize(s: string): (r: string)
    ensures |r| == |s|
    ensures forall k :: 0 <= k < |r| ==> IsWordChar(r[k])
    ensures forall k :: 0 <= k < |s| && IsWordChar(s[k]) ==> r[k] == s[k]
    ensures forall k :: 0 <= k < |s| && !IsWordChar(s[k]) ==> r[k] == '_'
  {
    seq(|s|, k requires 0 <= k < |s| => if IsWordChar(s[k]) then s[k] else '_')
  }

  ghost predicate AllWordChars(s: string) {
    forall k :: 0 <= k < |s| ==> IsWordChar(s[k])
  }

  /** Sanitising a sanitised key changes nothing. */
  lemma SanitizeIdempotent(s: string)
    ensures Sanitize(Sanitize(s)) == Sanitize(s)
  {
  }

  /**
   * Python's `s.split(c, 1)` read as a pair: the text before the first `c`
   * and the text after it. When `c` does not occur Python returns the
   * one-element list `[s]`; the pair `(s, "")` is a convention of this model.
   * cnv.py never reads the "" part: lines 109 and 137 split only when `=`
   * occurs, and line 118 reads only the first part.
   */
  function SplitOnce(s: string, c: char): (parts: (string, string))
    ensures c in s ==> s == parts.0 + [c] + parts.1 && c !in parts.0
    ensures c !in s ==> parts == (s, "")
  {
    var i := Scan(s, 0, x => x == c);
    if i == |s| then
      assert forall k :: 0 <= k < |s| ==> s[k] != c;
      (s, "")
    else
      assert s == s[..i] + [c] + s[i + 1..];
      (s[..i], s[i + 1..])
  }

  /** `SplitOnce` is fixed by the position of the first separator. */
  lemma SplitOnceAt(s: string, c: char, a: string, b: string)
    requires s == a + [c] + b && c !in a
    ensures SplitOnce(s, c) == (a, b)
  {
    ScanUnique(s, 0, x => x == c, |a|);
    assert s[..|a|] == a;
    assert s[|a| + 1..] == b;
  }

  /** Python's `s.split(c)` for a one-character separator: every piece, empty ones included. */
  function SplitAll(s: string, c: char): (parts: seq<string>)
    ensures |parts| >= 1
    ensures forall k :: 0 <= k < |parts| ==> c !in parts[k]
    decreases |s|
  {
    if c !in s then [s]
    else
      var (a, b) := SplitOnce(s, c);
      [a] + SplitAll(b, c)
  }

  /** Python's `sep.join(parts)`. */
  function Join(sep: string, parts: seq<string>): string {
    if |parts| == 0 then ""
    else if |parts| == 1 then parts[0]
    else parts[0] + sep + Join(sep, parts[1..])
  }

  /** Splitting on a character and joining back with it is the identity. */
  lemma {:induction false} JoinSplitAll(s: string, c: char)
    ensures Join([c], SplitAll(s, c)) == s
    decreases |s|
  {
    if c in s {
      var (a, b) := SplitOnce(s, c);
      JoinSplitAll(b, c);
      var rest := SplitAll(b, c);
      assert SplitAll(s, c) == [a] + rest;
      assert ([a] + rest)[1..] == rest;
    }
  }

  /**
   * Python's `c.join(s.split(c)[1:])`: joining every piece after the first
   * gives back the text after the first separator, later separators kept.
   */
  lemma AfterFirstSeparator(s: string, c: char)
    ensures Join([c], SplitAll(s, c)[1..]) == SplitOnce(s, c).1
  {
    if c in s {
      var (a, b) := SplitOnce(s, c);
      JoinSplitAll(b, c);
      assert SplitAll(s, c)[1..] == SplitAll(b, c);
    }
  }

  ghost predicate IsWord(w: string) {
    |w| > 0 && forall k :: 0 <= k < |w| ==> !IsSpace(w[k])
  }

  /** Python's `s.split()` with no argument: the maximal runs of non-whitespace. */
  function Words(s: string): (ws: seq<string>)
    ensures forall k :: 0 <= k < |ws| ==> IsWord(ws[k])
    decreases |s|
  {
    if |s| == 0 then []
    else if IsSpace(s[0]) then Words(s[1..])
    else
      var e := Scan(s, 0, IsSpace);
      [s[..e]] + Words(s[e..])
  }

  /** The words joined by single spaces. */
  function Unwords(ws: seq<string>): string {
    Join(" ", ws)
  }

  /** A word followed by whitespace or the end of the string is read back as that word. */
  lemma WordsCons(w: string, rest: string)
    requires IsWord(w)
    requires |rest| > 0 ==> IsSpace(rest[0])
    ensures Words(w + rest) == [w] + Words(rest)
  {
    var s := w + rest;
    ScanUnique(s, 0, IsSpace, |w|);
    assert s[..|w|] == w;
    assert s[|w|..] == rest;
  }

  lemma UnwordsCons(w: string, ws: seq<string>)
    requires |ws| > 0
    ensures Unwords([w] + ws) == w + " " + Unwords(ws)
  {
    assert ([w] + ws)[1..] == ws;
  }

  /** `Words` undoes `Unwords`: splitting space-joined words gives the words back. */
  lemma {:induction false} WordsUnwords(ws: seq<string>)
    requires forall k :: 0 <= k < |ws| ==> IsWord(ws[k])
    ensures Words(Unwords(ws)) == ws
  {
    if |ws| == 0 {
    } else if |ws| == 1 {
      WordsCons(ws[0], "");
      assert ws[0] + "" == ws[0];
    } else {
      var tail := Unwords(ws[1..]);
      WordsUnwords(ws[1..]);
      assert Words(" " + tail) == Words(tail) by {
        assert (" " + tail)[1..] == tail;
      }
      WordsCons(ws[0], " " + tail);
      assert ws[0] + " " + tail == ws[0] + (" " + tail);
      assert ws == [ws[0]] + ws[1..];
    }
  }

  /** The pieces `ws` with the gaps between and around them: `gaps[0] + ws[0] + gaps[1] + ... + ws[n-1] + gaps[n]`. */
  function Interleave(gaps: seq<string>, ws: seq<string>): string
    requires |gaps| == |ws| + 1
    decreases |ws|
  {
    if |ws| == 0 then gaps[0]
    else gaps[0] + ws[0] + Interleave(gaps[1..], ws[1..])
  }

  /** The pieces are words, the gaps are whitespace, and the gaps between two words are not empty. */
  ghost predicate Separates(gaps: seq<string>, ws: seq<string>) {
    && |gaps| == |ws| + 1
    && (forall k :: 0 <= k < |gaps| ==> AllSpace(gaps[k]))
    && (forall k :: 0 < k < |ws| ==> |gaps[k]| > 0)
    && (forall k :: 0 <= k < |ws| ==> IsWord(ws[k]))
  }

  /** `s` is the words `ws` in order, with whitespace of any length around them and at least one between two. */
  ghost predicate SplitsAs(s: string, ws: seq<string>) {
    exists gaps :: Separates(gaps, ws) && Interleave(gaps, ws) == s
  }

  /** Widening the leading gap widens the string by the same prefix. */
  lemma InterleaveWiden(x: string, gaps: seq<string>, ws: seq<string>)
    requires |gaps| == |ws| + 1
    ensures Interleave([x + gaps[0]] + gaps[1..], ws) == x + Interleave(gaps, ws)
  {
    var g := [x + gaps[0]] + gaps[1..];
    assert g[1..] == gaps[1..];
    if |ws| > 0 {
      assert Interleave(g, ws) == (x + gaps[0]) + ws[0] + Interleave(gaps[1..], ws[1..]);
    }
  }

  /** Replacing the leading gap by other whitespace keeps a split a split. */
  lemma SeparatesNewHead(x: string, g: seq<string>, ws: seq<string>)
    requires Separates(g, ws) && AllSpace(x)
    ensures Separates([x] + g[1..], ws)
  {
    var gaps := [x] + g[1..];
    forall k | 0 < k < |gaps|
      ensures gaps[k] == g[k]
    {
    }
  }

  /** A word in front of a split whose leading gap is not empty, when it is needed, is a split. */
  lemma SeparatesCons(w: string, g: seq<string>, ws: seq<string>)
    requires Separates(g, ws) && IsWord(w)
    requires |ws| > 0 ==> |g[0]| > 0
    ensures Separates([""] + g, [w] + ws)
  {
    var gaps := [""] + g;
    var words := [w] + ws;
    forall k | 0 < k < |gaps|
      ensures gaps[k] == g[k - 1]
    {
    }
    forall k | 0 < k < |words|
      ensures words[k] == ws[k - 1]
    {
    }
  }

  /** A leading whitespace character joins the first gap. */
  lemma GapsSpace(c: char, t: string, g: seq<string>, ws: seq<string>)
    requires IsSpace(c) && ws == Words(t)
    requires Separates(g, ws) && Interleave(g, ws) == t
    ensures Words([c] + t) == ws
    ensures var gaps := [[c] + g[0]] + g[1..];
            Separates(gaps, ws) && Interleave(gaps, ws) == [c] + t && |gaps[0]| > 0
  {
    assert ([c] + t)[1..] == t;
    InterleaveWiden([c], g, ws);
    assert AllSpace(g[0]);
    SeparatesNewHead([c] + g[0], g, ws);
  }

  /** A leading word is the first word, with an empty gap before it. */
  lemma GapsWord(w: string, t: string, g: seq<string>, ws: seq<string>)
    requires IsWord(w) && (|t| > 0 ==> IsSpace(t[0])) && ws == Words(t)
    requires Separates(g, ws) && Interleave(g, ws) == t
    requires |t| > 0 ==> |g[0]| > 0
    ensures Words(w + t) == [w] + ws
    ensures Separates([""] + g, [w] + ws) && Interleave([""] + g, [w] + ws) == w + t
  {
    WordsCons(w, t);
    if |ws| > 0 {
      assert |t| > 0;
    }
    SeparatesCons(w, g, ws);
    InterleaveCons(w, g, ws);
  }

  /** A word in front, with an empty gap before it. */
  lemma InterleaveCons(w: string, g: seq<string>, ws: seq<string>)
    requires |g| == |ws| + 1
    ensures Interleave([""] + g, [w] + ws) == w + Interleave(g, ws)
  {
    assert ([""] + g)[1..] == g && ([w] + ws)[1..] == ws;
    assert "" + w == w;
  }

  /** The whitespace gaps of `s`: `s` splits as `Words(s)` with these gaps. */
  function Gaps(s: string): (gaps: seq<string>)
    ensures Separates(gaps, Words(s)) && Interleave(gaps, Words(s)) == s
    ensures |s| > 0 && IsSpace(s[0]) ==> |gaps[0]| > 0
    decreases |s|
  {
    if |s| == 0 then [""]
    else if IsSpace(s[0]) then
      var g := Gaps(s[1..]);
      assert s == [s[0]] + s[1..];
      GapsSpace(s[0], s[1..], g, Words(s[1..]));
      [[s[0]] + g[0]] + g[1..]
    else
      var e := Scan(s, 0, IsSpace);
      var g := Gaps(s[e..]);
      assert s == s[..e] + s[e..];
      GapsWord(s[..e], s[e..], g, Words(s[e..]));
      [""] + g
  }

  /** Leading whitespace does not change the words. */
  lemma {:induction false} SkipSpace(p: string, rest: string)
    requires AllSpace(p)
    ensures Words(p + rest) == Words(rest)
    decreases |p|
  {
    if |p| == 0 {
      assert p + rest == rest;
    } else {
      assert (p + rest)[1..] == p[1..] + rest;
      SkipSpace(p[1..], rest);
    }
  }

  /** The rest of a split after its first word starts with whitespace, or is empty. */
  lemma InterleaveHead(gaps: seq<string>, ws: seq<string>)
    requires Separates(gaps, ws) && |ws| > 0
    ensures var tail := Interleave(gaps[1..], ws[1..]);
            |tail| > 0 ==> IsSpace(tail[0])
  {
    if |ws| > 1 {
      assert |gaps[1]| > 0;
      assert Interleave(gaps[1..], ws[1..]) == gaps[1] + ws[1] + Interleave(gaps[2..], ws[2..]) by {
        assert gaps[1..][1..] == gaps[2..] && ws[1..][1..] == ws[2..];
      }
    }
    assert AllSpace(gaps[1]);
  }

  /** The tail of a split is a split. */
  lemma SeparatesTail(gaps: seq<string>, ws: seq<string>)
    requires Separates(gaps, ws) && |ws| > 0
    ensures Separates(gaps[1..], ws[1..])
  {
    assert forall k :: 0 <= k < |gaps| - 1 ==> gaps[1..][k] == gaps[k + 1];
    assert forall k :: 0 <= k < |ws| - 1 ==> ws[1..][k] == ws[k + 1];
  }

  /** Every split of a string into words and whitespace gaps is the one `Words` finds. */
  lemma {:induction false} WordsOfSplit(gaps: seq<string>, ws: seq<string>)
    requires Separates(gaps, ws)
    ensures Words(Interleave(gaps, ws)) == ws
    decreases |ws|
  {
    if |ws| == 0 {
      SkipSpace(gaps[0], "");
      assert gaps[0] + "" == gaps[0];
    } else {
      var tail := Interleave(gaps[1..], ws[1..]);
      SeparatesTail(gaps, ws);
      WordsOfSplit(gaps[1..], ws[1..]);
      InterleaveHead(gaps, ws);
      WordsCons(ws[0], tail);
      SkipSpace(gaps[0], ws[0] + tail);
      assert Interleave(gaps, ws) == gaps[0] + (ws[0] + tail);
      assert ws == [ws[0]] + ws[1..];
    }
  }

  /** `split()` is exactly the split into words: `Words(s) == ws` iff `s` is `ws` with whitespace gaps. */
  lemma WordsSplitsAs(s: string, ws: seq<string>)
    ensures Words(s) == ws <==> SplitsAs(s, ws)
  {
    if Words(s) == ws {
      var gaps := Gaps(s);
      assert Separates(gaps, ws) && Interleave(gaps, ws) == s;
    }
    if SplitsAs(s, ws) {
      var gaps :| Separates(gaps, ws) && Interleave(gaps, ws) == s;
      WordsOfSplit(gaps, ws);
    }
  }

  /** Python's `xs[-2:]`: the last two elements, or all of them when there are fewer. */
  function LastTwo<T>(xs: seq<T>): (r: seq<T>)
    ensures |r| == if |xs| < 2 then |xs| else 2
    ensures r == xs[|xs| - |r|..]
  {
    if |xs| <= 2 then xs else xs[|xs| - 2..]
  }
}

=== FILE: wrappers.dfy ===
/** Failure-compatible datatypes shared by every module of the model. */
module Wrappers {

  /** Python's `None` or a present value. */
  datatype Option<+T> = None | Some(value: T) {
    predicate IsFailure() {
      None?
    }

    function PropagateFailure<U>(): Option<U>
      requires None?
    {
      None
    }

    function Extract(): T
      requires Some?
    {
      value
    }
  }

  /** The outcome of a computation that may raise. */
  datatype Result<+R, +E> = Success(value: R) | Failure(error: E) {
    predicate IsFailure() {
      Failure?
    }

    function PropagateFailure<U>(): Result<U, E>
      requires Failure?
    {
      Failure(error)
    }

    function Extract(): R
      requires Success?
    {
      value
    }
  }
}
